=== FILE: README.md ===
# Medora portal: routing, session and feature-list model

A Dafny model of the core of the Medora healthcare portal, a React client with
four roles (super-admin, doctor, nurse, patient) and an in-memory server-side user
store. The model covers:

- the role guard `ProtectedRoute`, as a pure decision over the session's loading flag, its user and the allowed roles (`protected_route.dfy`);
- both route tables, `client/src/App.tsx` (wouter) and `src/App.tsx` (react-router), as first-match data (`routes.dfy`). Module `RouteTableFacts` proves what each path shows to each role;
- the `AuthContext` session state machine: hydration from the `medora_user` storage slot, login, signup, logout and `useAuth` (`auth_context.dfy`). The server response and the JSON codec are inputs;
- `MemStorage` of `server/storage.ts`: the id-keyed map (an insertion-ordered sequence), the id counter, the demo users, lookup by id and by email, and creation (`storage.dfy`);
- the to-do list of `TaskManager` and the assignment list of `NurseAssignment` (`task_manager.dfy`, `nurse_assignment.dfy`);
- the render and submit logic of `LoginPage` and `SignupPage` (`login_page.dfy`, `signup_page.dfy`);
- the role-keyed tables and string helpers of `DashboardLayout` (`dashboard_layout.dfy`).

The shared modules are:

- `Options` for `Option`/`Result`;
- `Roles` for `UserRole` and the client `User`;
- `Lists` for `Array.prototype.filter`;
- `Text` for `trim`, `replace`, `split(' ')[0]` and `charAt(0)`.

The model follows the code in three places where one might expect more:

- `createUser` has no duplicate-email check. A second user with the same email is stored, and email lookup keeps returning the first one (`Storage.DuplicateEmailKeepsEarliest`).
- Deleting a task or an assignment returns nothing; it filters the list. Deleting twice is the same as deleting once.
- Task status is a boolean that `toggleTask` flips; it is not an arbitrary status transition. Toggling twice restores the list.

## Model

| member | source | states |
|---|---|---|
| Roles.Key | client/src/contexts/AuthContext.tsx:5 | each role's string, as used in `/dashboard/${role}` and `/login/:role`, is a non-empty single path segment (no `/`) |
| Roles.ParseKey | client/src/contexts/AuthContext.tsx:5 | a string is read as a role exactly when it is one of the four role strings, and then as the role with that string |
| Roles.KeyRoundTrip | client/src/contexts/AuthContext.tsx:5 | every role's string reads back as that role, so distinct roles have distinct strings |
| Lists.Filter | client/src/pages/TaskManager.tsx:47 | every element `filter` keeps satisfies the predicate, and the list never grows |
| Lists.FilterAppend | client/src/pages/TaskManager.tsx:47 | filtering a concatenation filters each part, so the kept elements keep their relative order |
| Lists.FilterMembers | client/src/pages/TaskManager.tsx:47 | `filter` keeps exactly the satisfying elements: each kept element comes from the input, and each satisfying input element is kept |
| Text.TrimStart | client/src/pages/TaskManager.tsx:26 | the result is a suffix that starts with a non-whitespace character, and everything dropped is whitespace |
| Text.TrimEnd | client/src/pages/TaskManager.tsx:26 | the result is a prefix that ends with a non-whitespace character, and everything dropped is whitespace |
| Text.Trim | client/src/pages/TaskManager.tsx:26 | `trim()` never lengthens the string, and what it returns neither starts nor ends with whitespace |
| Text.TrimEmptyIffBlank | client/src/pages/TaskManager.tsx:26 | `!s.trim()` holds exactly when every character of `s` is ECMAScript whitespace |
| Text.IndexOf | src/components/DashboardLayout.tsx:128 | -1 exactly when the character is absent; otherwise a position holding it with no earlier occurrence |
| Text.IndexOfFirst | src/components/DashboardLayout.tsx:128 | any position holding the character with none before it is the one `IndexOf` reports |
| Text.ReplaceFirst | src/components/DashboardLayout.tsx:128 | `replace` with a one-character pattern changes only the first occurrence, keeps the length, and is the identity when the pattern is absent |
| Text.FirstWord | src/components/DashboardLayout.tsx:203 | `split(' ')[0]` is a space-free prefix that is the whole string or is followed by a space |
| Text.FirstWordUnique | src/components/DashboardLayout.tsx:203 | those three properties determine the first word: no other prefix has them |
| Text.FirstChar | src/components/DashboardLayout.tsx:123 | `charAt(0)` is the empty string for the empty string and the first character otherwise |
| ProtectedRoute.Decide | client/src/components/ProtectedRoute.tsx:10-26 | the spinner while loading; a redirect to `/` when signed out or the role is not allowed; the page exactly when loaded, signed in and the role is allowed |
| ProtectedRoute.DecisionDependsOnlyOnRole | client/src/components/ProtectedRoute.tsx:21 | two users with the same role get the same decision |
| Routes.Matches | client/src/App.tsx:21-74 | a `:role` parameter segment is never empty, so `/login/` alone does not match `/login/:role`; the pathless fallback matches every path |
| Routes.ClientRoutes | client/src/App.tsx:19-75 | the eleven declarations of the wouter `Switch` in order, each with its pattern, its guard's allowed roles and its page, ending with the redirect to `/` |
| Routes.RouterRoutes | src/App.tsx:20-72 | the eleven declarations of the react-router `Routes` in order, with `path="*"` as the fallback; `RouteTableFacts.TablesAgree` relates it to the wouter table |
| Routes.Resolve | client/src/App.tsx:19-75 | the `Switch` picks the first declaration whose pattern matches; `RouteTableFacts.ResolveFromSpec` characterises it |
| Routes.ResolveFrom | client/src/App.tsx:19-75 | a search that starts inside a table ending in the fallback always finds a route, and what it finds is a declaration at or after the starting point; `RouteTableFacts.ResolveFromSpec` gives the first-match characterisation |
| Routes.Render | client/src/components/ProtectedRoute.tsx:10-26 | the view is blank exactly when no route matched; public pages show whatever the session; a guarded page shows the spinner while loading, is shown exactly when loaded, signed in and the role is allowed, and otherwise redirects to `/`; a redirect declaration (the `<Redirect to="/">` fallback of client/src/App.tsx) navigates to its target |
| Routes.Access | client/src/App.tsx:19-75 | with a fallback as the last declaration no path is left blank, and the view is blank exactly when no declaration matched |
| RouteTableFacts.ResolveFromSpec | client/src/App.tsx:19-75 | the `Switch` renders nothing exactly when no declaration matches, and otherwise renders the element of the earliest matching declaration |
| RouteTableFacts.ResolveFirst | client/src/App.tsx:19-75 | when declaration i is the first match, the path resolves to declaration i's element |
| RouteTableFacts.SuperAdminDashboardMatch | client/src/App.tsx:28-32 | `/dashboard/super-admin` first matches its own declaration, no earlier one |
| RouteTableFacts.DoctorDashboardMatch | client/src/App.tsx:34-38 | `/dashboard/doctor` first matches its own declaration |
| RouteTableFacts.NurseDashboardMatch | client/src/App.tsx:40-44 | `/dashboard/nurse` first matches its own declaration |
| RouteTableFacts.PatientDashboardMatch | client/src/App.tsx:46-50 | `/dashboard/patient` first matches its own declaration |
| RouteTableFacts.DoctorAvailabilityMatch | client/src/App.tsx:53-57 | `/doctor-availability` first matches its own declaration |
| RouteTableFacts.NurseAssignmentMatch | client/src/App.tsx:59-63 | `/nurse-assignment` first matches its own declaration |
| RouteTableFacts.TasksMatch | client/src/App.tsx:65-69 | `/tasks` first matches its own declaration |
| RouteTableFacts.DashboardMatch | client/src/App.tsx:28-50 | each role's `/dashboard/<role>` first matches a route guarded for that role alone |
| RouteTableFacts.ResolveDashboard | client/src/App.tsx:28-50 | each role's dashboard path resolves to its own dashboard behind a one-role guard |
| RouteTableFacts.DashboardAdmitsOnlyOwner | client/src/App.tsx:28-50 | a signed-in user sees `/dashboard/R` exactly when their role is R; anyone else is sent to `/` |
| RouteTableFacts.DoctorAvailabilityAccess | client/src/App.tsx:53-57 | doctors, nurses and super-admins see the availability page; patients are sent to `/` |
| RouteTableFacts.NurseAssignmentAccess | client/src/App.tsx:59-63 | only nurses and super-admins see the assignment page |
| RouteTableFacts.TasksAccess | client/src/App.tsx:65-69 | only nurses and doctors see `/tasks`; super-admins and patients are sent to `/` |
| RouteTableFacts.PublicMatch | client/src/App.tsx:21-25 | `/`, `/login/<segment>` and `/signup` first match the three public declarations |
| RouteTableFacts.PublicRoutesUnguarded | client/src/App.tsx:21-25 | the home, login and signup pages show for any session, even while loading |
| RouteTableFacts.CatchAllMatch | client/src/App.tsx:72-74 | a path no declared route claims first matches the fallback route |
| RouteTableFacts.UnmatchedRedirectsHome | client/src/App.tsx:72-74 | every undeclared path redirects to `/`, whatever the session |
| RouteTableFacts.EveryPathResolves | client/src/App.tsx:72-74 | because the fallback matches everything, no path leaves the switch blank |
| RouteTableFacts.TablesAgree | src/App.tsx:20-72 | the react-router table shows the same view as the wouter table for every path and session |
| RouteTableFacts.GuardedRoutesAllowSomeone | client/src/App.tsx:28-69 | every guarded route allows at least one role |
| AuthContext.Initial | client/src/contexts/AuthContext.tsx:30-31 | a provider mounts signed out and loading, with the storage slot as found |
| AuthContext.Hydrate | client/src/contexts/AuthContext.tsx:33-44 | loading always ends; an absent or empty slot changes nothing; a slot that parses to a user or `null` sets the user; an unparsable one is removed and the user stays as it was |
| AuthContext.Login | client/src/contexts/AuthContext.tsx:46-70 | posts to `/api/auth/login`; resolves true exactly when the response carries a user, which is then stored in memory and in the slot and welcomed by name; otherwise user and slot are unchanged and the toast is the mismatch text, the thrown error's message, or the fallback for a non-`Error` throw; loading ends either way |
| AuthContext.Signup | client/src/contexts/AuthContext.tsx:78-102 | posts to `/api/auth/signup`; the same session rules as login, with the signup toasts: account created, failed to create, the thrown message, or the signup fallback |
| AuthContext.SignupSessionIsLoginSession | client/src/contexts/AuthContext.tsx:46-102 | for the same response, signup and login leave the same session and resolve to the same boolean |
| AuthContext.Logout | client/src/contexts/AuthContext.tsx:72-76 | the user and the slot are both cleared and the loading flag is untouched |
| AuthContext.UseAuth | client/src/contexts/AuthContext.tsx:119-125 | the context is returned exactly when a provider exists; otherwise the error with its exact message |
| AuthContext.LoginSurvivesReload | client/src/contexts/AuthContext.tsx:33-70 | with a codec that reads back what it writes and never writes the empty string (`JSON.stringify` of an object never is), a reload after a successful login restores the same user; the non-empty half matters because hydration skips an empty slot (`if (savedUser)`) |
| AuthContext.LogoutSurvivesReload | client/src/contexts/AuthContext.tsx:33-76 | a reload after logout finds no session |
| AuthContext.FailureIsHarmless | client/src/contexts/AuthContext.tsx:46-70 | a failed login leaves nothing behind: a later login behaves as if the failure never happened |
| Storage.OrNull | server/storage.ts:92-94 | `value \|\| null` turns exactly `null` and the empty string into `null` and keeps every other value |
| Storage.WithId | server/storage.ts:89-95 | the stored user carries the given id and the inserted email, name, password and role, and never stores an optional attribute as the empty string |
| Storage.FindId | server/storage.ts:78 | `Map.get` finds nothing exactly when no entry has the key; a found entry has the key |
| Storage.FindIdAt | server/storage.ts:78 | the entry found is the one at the first position holding the key |
| Storage.Put | server/storage.ts:96 | `Map.set` with a new key appends one entry; with an existing key the size is unchanged |
| Storage.PutLookup | server/storage.ts:96 | after `set`, the key maps to the new user and every other key to what it mapped to before |
| Storage.GetUser | server/storage.ts:77-79 | `getUser` is undefined exactly when no stored user has the id; a found user has it |
| Storage.GetUserFindsStored | server/storage.ts:77-79 | in a valid store every stored user is found under its own id |
| Storage.FirstWithEmail | server/storage.ts:81-85 | the email lookup is undefined exactly when no user has the email; a found user has it |
| Storage.FirstWithEmailAt | server/storage.ts:81-85 | the user found is the one at the earliest insertion position with the email |
| Storage.GetUserByEmail | server/storage.ts:81-85 | the loop implementing `find` agrees with the reference lookup; none is found exactly when no user has the email; in a valid store the result has the lowest id among users with the email |
| Storage.CreateUser | server/storage.ts:87-98 | the new user gets the counter as id and the inserted fields with falsy attributes nulled; the counter advances by one; the user is appended; validity is preserved |
| Storage.CreateLookup | server/storage.ts:87-98 | after creation the new id finds the new user and every other id finds what it found before |
| Storage.CreateAppends | server/storage.ts:87-98 | when all ids lie below the counter, creation appends exactly one user and keeps all ids below the new counter |
| Storage.Numbered | server/storage.ts:64-74 | numbering a run of inserts yields one user per insert |
| Storage.NumberedAt | server/storage.ts:64-74 | the i-th user of a run is the i-th insert with id first + i |
| Storage.InsertAll | server/storage.ts:64-74 | inserting a list advances the counter by its length |
| Storage.InsertAllValid | server/storage.ts:64-74 | inserting any list keeps a valid store valid |
| Storage.InsertAllAppends | server/storage.ts:64-74 | inserting a list appends its users in list order, numbered from the counter |
| Storage.Seeded | server/storage.ts:16-74 | seeding an empty store with counter 1 gives the i-th listed user the id i + 1 and a valid store whose counter is one past the list |
| Storage.New | server/storage.ts:16-74 | the constructed store is valid, holds the four demo users with ids 1 to 4 in order, and has counter 5 |
| Storage.FirstWithEmailAppend | server/storage.ts:81-85 | the email lookup on a concatenation takes the first part's match when there is one, otherwise the second part's |
| Storage.DuplicateEmailKeepsEarliest | server/storage.ts:87-98 | creating a user with an email already taken still adds a user, and the email lookup still returns the earlier one |
| Storage.NewEmailFindsCreated | server/storage.ts:81-98 | after creating a user with a fresh email, the email lookup returns that user |
| TaskManager.Submit | client/src/pages/TaskManager.tsx:24-38 | a description that trims to nothing changes nothing; otherwise exactly one open task with the draft's text and priority is appended and the form resets |
| TaskManager.Toggle | client/src/pages/TaskManager.tsx:40-44 | tasks with the id have `completed` flipped and nothing else changed; all other tasks are untouched |
| TaskManager.ToggleTwice | client/src/pages/TaskManager.tsx:40-44 | toggling the same id twice restores the list |
| TaskManager.ToggleAbsent | client/src/pages/TaskManager.tsx:40-44 | toggling an id no task has changes nothing |
| TaskManager.Delete | client/src/pages/TaskManager.tsx:46-48 | no task with the id survives, and the survivors plus the tasks with the id are the original list as a multiset: nothing else is lost or added |
| TaskManager.DeleteAbsent | client/src/pages/TaskManager.tsx:46-48 | deleting an id no task carries changes nothing, so repeating a delete is a no-op |
| TaskManager.DeleteFromPanels | client/src/pages/TaskManager.tsx:46-60 | after a delete, the pending and completed panels are the old panels without the tasks carrying that id |
| TaskManager.Pending | client/src/pages/TaskManager.tsx:59 | the pending panel holds only open tasks and is no longer than the list |
| TaskManager.Completed | client/src/pages/TaskManager.tsx:60 | the completed panel holds only completed tasks and is no longer than the list |
| TaskManager.DeleteKeepsOrder | client/src/pages/TaskManager.tsx:46-60 | deletion and both panels distribute over concatenation, so survivors and panel entries keep their original order |
| TaskManager.PendingCompletedPartition | client/src/pages/TaskManager.tsx:59-60 | the pending and completed lists partition a task list as a multiset, and each holds only tasks of its kind |
| TaskManager.SubmitAddsPending | client/src/pages/TaskManager.tsx:24-60 | a submitted task lands at the end of the pending list, and the completed list is unchanged |
| NurseAssignment.FindLabel | src/pages/NurseAssignment.tsx:163 | `shifts.find(...)?.label` is undefined exactly when no option has the value; otherwise it is the label of the first option with that value |
| NurseAssignment.FindLabelAt | src/pages/NurseAssignment.tsx:163 | the first position holding the value determines the label `find` reports |
| NurseAssignment.ShiftLabel | src/pages/NurseAssignment.tsx:18-22 | the label lookup over the form's three shift options; `ShiftLabels` gives its values |
| NurseAssignment.UnknownShiftHasNoLabel | src/pages/NurseAssignment.tsx:163 | a value other than morning, afternoon and night has no label |
| NurseAssignment.ShiftLabels | src/pages/NurseAssignment.tsx:18-22 | morning, afternoon and night have their labels, and every other value has none |
| NurseAssignment.Submit | src/pages/NurseAssignment.tsx:24-38 | with no doctor or no nurse chosen nothing happens; otherwise one active assignment is appended and the form resets to morning |
| NurseAssignment.Delete | src/pages/NurseAssignment.tsx:40-42 | no entry with the id survives, every other entry does, and what is kept plus what carries the id is the original list as a multiset, so nothing is duplicated or dropped |
| NurseAssignment.DeleteIdempotent | src/pages/NurseAssignment.tsx:40-42 | deleting an id twice is the same as deleting it once |
| NurseAssignment.DeleteKeepsOrder | src/pages/NurseAssignment.tsx:40-42 | deletion distributes over concatenation |
| NurseAssignment.InitialAllActive | src/pages/NurseAssignment.tsx:5-8 | the initial assignments are all active |
| NurseAssignment.SubmitKeepsActive | src/pages/NurseAssignment.tsx:24-38 | submitting keeps every assignment active |
| NurseAssignment.DeleteKeepsActive | src/pages/NurseAssignment.tsx:40-42 | deleting keeps every assignment active |
| NurseAssignment.ActiveCount | src/pages/NurseAssignment.tsx:125 | the badge counts the whole list, whatever the statuses; `ActiveBadgeIsExact` relates it to the active entries |
| NurseAssignment.ActiveBadgeIsExact | src/pages/NurseAssignment.tsx:125 | while all assignments are active, the badge's list length equals the number of active assignments |
| LoginPage.ValidateRole | src/pages/LoginPage.tsx:37 | the URL parameter is accepted exactly when it is a key of `roleIcons`, and is then read as the role with that string |
| LoginPage.Render | src/pages/LoginPage.tsx:31-66 | a signed-in visitor goes to their own dashboard first; an unknown role goes to `/`; the spinner while loading; the form exactly when signed out, loaded and the role is valid |
| LoginPage.HandleSubmit | src/pages/LoginPage.tsx:44-55 | ignored while a submit is in flight; otherwise `login` is called with the form's email and password and the URL role, the session follows login's outcome, and the flag is cleared |
| LoginPage.SuccessfulLoginLandsOnDashboard | src/pages/LoginPage.tsx:31-55 | after a successful submit the page redirects to the user's own dashboard, and that route admits them |
| SignupPage.Attribute | client/src/pages/SignupPage.tsx:46-55 | a role attribute is sent exactly for its own role when filled in, with the typed value |
| SignupPage.BuildPayload | client/src/pages/SignupPage.tsx:39-55 | the payload copies name, email, password and role, and carries each role attribute exactly when the role matches and the field is non-empty |
| SignupPage.Render | client/src/pages/SignupPage.tsx:23-73 | a signed-in visitor goes to their own dashboard; the spinner while loading; the form exactly when signed out and loaded |
| SignupPage.HandleSubmit | client/src/pages/SignupPage.tsx:28-62 | ignored while a submit is in flight; refused with the alert when the passwords differ; otherwise `signup` is called with the payload and the flag is cleared |
| SignupPage.PayloadIgnoresConfirmation | client/src/pages/SignupPage.tsx:39-55 | the confirmation field never reaches the request |
| SignupPage.AtMostOneAttribute | client/src/pages/SignupPage.tsx:9-55 | at most one role attribute is ever sent, and the initial patient form sends none |
| SignupPage.SuccessfulSignupLandsOnDashboard | client/src/pages/SignupPage.tsx:23-62 | after a successful signup the page redirects to the new user's own dashboard, and that route admits them |
| DashboardLayout.RoleIcon | src/components/DashboardLayout.tsx:41-46 | `roleIcons`, total over the four roles; `RoleTablesInjective` shows no two roles share an icon |
| DashboardLayout.RoleColor | src/components/DashboardLayout.tsx:48-53 | `roleColors`, total over the four roles; `RoleColorsArePalette` and `RoleTablesInjective` state its properties |
| DashboardLayout.NavigationItems | src/components/DashboardLayout.tsx:55-76 | `navigationItems`, total over the four roles; `NavigationStartsAtDashboard` and `NavigationLinksAreAdmitted` state its properties |
| DashboardLayout.ColorClasses | src/components/DashboardLayout.tsx:90-99 | any colour outside the five listed falls back to the blue classes |
| DashboardLayout.PaletteFollowsPattern | src/components/DashboardLayout.tsx:90-99 | each of the five listed colours gets the classes named after it |
| DashboardLayout.RoleColorsArePalette | src/components/DashboardLayout.tsx:48-53 | every role's colour is one of the five listed, so none falls back to blue |
| DashboardLayout.RoleTablesInjective | src/components/DashboardLayout.tsx:41-53 | different roles have different icons and different colours |
| DashboardLayout.NavigationStartsAtDashboard | src/components/DashboardLayout.tsx:55-76 | every role has three navigation entries, and the first links to its own dashboard |
| DashboardLayout.NavigationLinksAreAdmitted | src/components/DashboardLayout.tsx:55-76 | every real navigation link of a role leads to a page the router shows to that role |
| DashboardLayout.RoleLabel | src/components/DashboardLayout.tsx:128 | the role caption has the length of the role string |
| DashboardLayout.RoleLabels | src/components/DashboardLayout.tsx:128 | `super-admin` reads `super admin`, and the other role strings, which have no hyphen, are unchanged |
| DashboardLayout.GreetingName | src/components/DashboardLayout.tsx:203 | the greeting uses the space-free prefix of the name that is the whole name or is followed by a space |
| DashboardLayout.AvatarLetter | src/components/DashboardLayout.tsx:123 | the avatar shows the first character of the name, or nothing for an empty name |

## Left out

- AuthContext.Hydrate: a slot holding well-formed JSON that is not a user (`{}`, `42`) is not represented. The source keeps whatever `JSON.parse` returns (AuthContext.tsx:36-38), so such a slot becomes a truthy user without a role. The login and signup pages then redirect to `/dashboard/undefined`, which the fallback sends to `/`, and the guard refuses every page, until the slot is cleared. The model's user always has one of the four roles, so it does not represent that lock-out.
- AuthContext.Login: assumes `localStorage.setItem` succeeds. If it throws (quota or security error) after `setUser`, the source resolves `false` with the user already set in memory and the slot unchanged; the model has no outcome for that half-committed state.
- AuthContext.Signup: makes the same assumption about `localStorage.setItem`, for the signup request.
- Text.FirstChar: strings are sequences of Unicode code points, not UTF-16 code units. For a string starting outside the Basic Multilingual Plane, JavaScript's `charAt(0)` gives a lone surrogate where the model gives the whole code point. The string results of `Text.Trim`, `Text.ReplaceFirst` and `Text.FirstWord` agree with JavaScript's, because a surrogate half is never `-`, a space or whitespace.
- Text.IndexOf: positions are counted in code points, not UTF-16 code units, so for a string with characters outside the Basic Multilingual Plane before the match it is smaller than JavaScript's `indexOf`. It is used only to locate the hyphen `replace('-', ' ')` rewrites, whose string result is unaffected.
- DashboardLayout.AvatarLetter: inherits the code-point reading of `Text.FirstChar`, so a name starting outside the Basic Multilingual Plane shows the whole character rather than a lone surrogate.
- RouteTableFacts.TablesAgree: src/App.tsx guards its routes with src/components/ProtectedRoute.tsx, which is not part of this model; it is assumed to decide exactly as client/src/components/ProtectedRoute.tsx does. The lemma proves the two declaration lists equal; the "same view" reading rests on that assumption, as do `DashboardLayout.NavigationLinksAreAdmitted` and `LoginPage.SuccessfulLoginLandsOnDashboard`.
- JSX, styling, icons as components, the logout toast and `alert`: only the decisions they display are modelled (the mismatch flag stands for the alert). The login and signup toasts are modelled as the text of a completion.
- Network I/O: `apiRequest` and the server's auth routes are not part of this model. A login or signup response is an input: a user, no user, or a thrown error.
- `localStorage` and `JSON`: the `medora_user` slot is an `Option<string>`, and `JSON.parse`/`JSON.stringify` are an abstract codec. The reload lemmas assume that the codec reads back what it writes and that it never writes the empty string; `JSON.stringify` of an object never does, and an empty slot would be skipped on reload.
- React timing: each handler is one atomic transition. Interleavings of two in-flight requests and the `isLoading` flicker between renders are not modelled.
- `Date.now()` ids and ISO timestamps are parameters of the submit handlers; nothing assumes they are unique.
- The routers' path handling: paths are matched literally. Trailing-slash tolerance, URL decoding and case handling of wouter and react-router are not modelled. react-router's ranking is modelled as first-match, which gives the same result here because only the catch-all overlaps other routes.
- `getColorClasses` looks colours up on a plain object, so inherited keys such as `constructor` are not modelled; only own keys are.
- The store counter `currentId` is an unbounded integer; JavaScript number precision beyond 2^53 is not modelled.
- server/seed.ts and the database schema's unique email constraint are not part of this model; the in-memory store has no such constraint.
- src/contexts/AuthContext.tsx, which `src/pages/LoginPage.tsx` imports, is not part of this model; the client context is assumed to match it.
- The static dashboards, `DoctorAvailability`, `getPriorityColor` and the `roleNames` captions only render constant data and are not modelled.
- The `handleChange` handlers and the show-password toggles only copy input into form state and are not modelled.

=== FILE: auth_context.dfy ===
/** The session state machine of client/src/contexts/AuthContext.tsx: hydration
    from the durable `medora_user` slot, login, signup and logout. The network
    response and the JSON codec are inputs. */
module AuthContext {
  import opened Options
  import opened Roles

  /** The provider's state: the signed-in user, the loading flag, and the
      durable storage slot (`None` when the key is absent). */
  datatype Session = Session(user: Option<User>, isLoading: bool, slot: Option<string>)

  /** What `JSON.parse` makes of the slot, as far as the model represents it: a
      user or `null`, or a syntax error. Well-formed JSON that is not a user
      (`{}`, `42`) has no outcome here. */
  datatype Parsed = Value(user: Option<User>) | Malformed

  /** The JSON codec the provider relies on, left abstract. */
  datatype Codec = Codec(parse: string -> Parsed, stringify: User -> string)

  /** A codec whose `parse` reads back what `stringify` wrote, and whose output
      is never the empty string (a serialised object never is). */
  ghost predicate RoundTrips(c: Codec)
  {
    forall u: User :: c.parse(c.stringify(u)) == Value(Some(u)) && c.stringify(u) != []
  }

  /** The state on mount, before the hydration effect has run. */
  function Initial(slot: Option<string>): (s: Session)
    ensures s.user.None? && s.isLoading && s.slot == slot
  {
    Session(None, true, slot)
  }

  /** The mount effect: restore the user from a non-empty slot; a slot that does
      not parse is removed and the user stays signed out. Loading ends in every
      branch and nothing fails. */
  function Hydrate(s: Session, codec: Codec): (r: Session)
    ensures !r.isLoading
    ensures (s.slot.None? || s.slot == Some("")) ==> r.user == s.user && r.slot == s.slot
    ensures s.slot.Some? && s.slot.value != "" && codec.parse(s.slot.value).Value? ==>
              r.user == codec.parse(s.slot.value).user && r.slot == s.slot
    ensures s.slot.Some? && s.slot.value != "" && codec.parse(s.slot.value).Malformed? ==>
              r.user == s.user && r.slot.None?
  {
    if s.slot.None? || s.slot.value == "" then s.(isLoading := false)
    else
      match codec.parse(s.slot.value)
      case Value(u) => s.(user := u, isLoading := false)
      case Malformed => s.(slot := None, isLoading := false)
  }

  /** The server's answer to a login or signup request: a response carrying a
      user, a response without one, or a thrown value (non-2xx status or
      transport failure). A thrown `Error` carries its message; any other
      thrown value carries none. */
  datatype Response = Accepted(user: User) | Rejected | Failed(error: Option<string>)

  /** The state after an asynchronous call, the boolean the call resolves to,
      the endpoint it posted to and the toast it ended with. */
  datatype Completion = Completion(session: Session, success: bool, endpoint: string, notice: string)

  /** The wording of one request kind: its endpoint, its success toast for a
      given user, and the toasts for a response without a user and for a
      thrown value that is not an `Error`. */
  datatype Wording = Wording(endpoint: string, welcome: User -> string, rejected: string, fallback: string)

  /** Handling of a login or signup response. Loading is raised while the
      request is in flight. A user in the response is stored both in memory
      and in the slot; anything else leaves both untouched. The loading flag
      is cleared either way (the `finally` block). */
  function Complete(s: Session, response: Response, codec: Codec, w: Wording): Completion
  {
    var busy := s.(isLoading := true);
    match response
    case Accepted(u) =>
      Completion(Session(Some(u), false, Some(codec.stringify(u))), true, w.endpoint, w.welcome(u))
    case Rejected =>
      Completion(busy.(isLoading := false), false, w.endpoint, w.rejected)
    case Failed(error) =>
      Completion(busy.(isLoading := false), false, w.endpoint, if error.Some? then error.value else w.fallback)
  }

  const LoginEndpoint: string := "/api/auth/login"
  const SignupEndpoint: string := "/api/auth/signup"

  /** `Welcome back, ${name}!`. */
  function WelcomeBack(u: User): string
  {
    "Welcome back, " + u.name + "!"
  }

  const LoginWording: Wording :=
    Wording(LoginEndpoint, WelcomeBack, "Invalid credentials or role mismatch", "Login failed. Please try again.")

  const SignupWording: Wording :=
    Wording(SignupEndpoint, (u: User) => "Account created successfully!", "Failed to create account",
            "Signup failed. Please try again.")

  /** `login(email, password, role)`: posts to the login endpoint; the outcome
      is decided by the response alone. */
  function Login(s: Session, response: Response, codec: Codec): (c: Completion)
    ensures !c.session.isLoading && c.endpoint == LoginEndpoint
    ensures c.success <==> response.Accepted?
    ensures response.Accepted? ==>
              && c.session.user == Some(response.user)
              && c.session.slot == Some(codec.stringify(response.user))
              && c.notice == "Welcome back, " + response.user.name + "!"
    ensures !response.Accepted? ==> c.session.user == s.user && c.session.slot == s.slot
    ensures response.Rejected? ==> c.notice == "Invalid credentials or role mismatch"
    ensures response == Failed(None) ==> c.notice == "Login failed. Please try again."
    ensures response.Failed? && response.error.Some? ==> c.notice == response.error.value
  {
    Complete(s, response, codec, LoginWording)
  }

  /** `signup(userData)`: the same state effects as `login`, on the signup
      endpoint and with its own toasts. */
  function Signup(s: Session, response: Response, codec: Codec): (c: Completion)
    ensures !c.session.isLoading && c.endpoint == SignupEndpoint
    ensures c.success <==> response.Accepted?
    ensures response.Accepted? ==>
              && c.session.user == Some(response.user)
              && c.session.slot == Some(codec.stringify(response.user))
              && c.notice == "Account created successfully!"
    ensures !response.Accepted? ==> c.session.user == s.user && c.session.slot == s.slot
    ensures response.Rejected? ==> c.notice == "Failed to create account"
    ensures response == Failed(None) ==> c.notice == "Signup failed. Please try again."
    ensures response.Failed? && response.error.Some? ==> c.notice == response.error.value
  {
    Complete(s, response, codec, SignupWording)
  }

  /** Login and signup leave the same session behind for the same response:
      they differ only in endpoint and wording. */
  lemma SignupSessionIsLoginSession(s: Session, response: Response, codec: Codec)
    ensures Signup(s, response, codec).session == Login(s, response, codec).session
    ensures Signup(s, response, codec).success == Login(s, response, codec).success
  {
  }

  /** `logout()`: forget the user in memory and in the slot. */
  function Logout(s: Session): (r: Session)
    ensures r.user.None? && r.slot.None?
    ensures r.isLoading == s.isLoading
  {
    s.(user := None, slot := None)
  }

  /** `useAuth()`: the context, or the error thrown outside a provider. */
  function UseAuth(context: Option<Session>): (r: Result<Session, string>)
    ensures r.Ok? <==> context.Some?
    ensures r.Ok? ==> r.value == context.value
    ensures r.Err? ==> r.error == "useAuth must be used within an AuthProvider"
  {
    match context
    case Some(s) => Ok(s)
    case None => Err("useAuth must be used within an AuthProvider")
  }

  /** A successful login survives a reload: a fresh provider hydrating from the
      slot the login wrote restores the same user. */
  lemma LoginSurvivesReload(s: Session, u: User, codec: Codec)
    requires RoundTrips(codec)
    ensures var after := Login(s, Accepted(u), codec).session;
            Hydrate(Initial(after.slot), codec).user == Some(u)
  {
    assert codec.parse(codec.stringify(u)) == Value(Some(u)) && codec.stringify(u) != [];
  }

  /** After logout a reload finds no session. */
  lemma LogoutSurvivesReload(s: Session, codec: Codec)
    ensures Hydrate(Initial(Logout(s).slot), codec).user.None?
  {
  }

  /** A failed login or signup changes nothing but the loading flag, and a
      retry after it behaves exactly as the first attempt would have. */
  lemma FailureIsHarmless(s: Session, response: Response, retry: Response, codec: Codec)
    requires !response.Accepted?
    ensures Login(Login(s, response, codec).session, retry, codec) == Login(s, retry, codec)
  {
  }
}

=== FILE: dashboard_layout.dfy ===
/** The role-keyed tables and string helpers of the dashboard shell,
    src/components/DashboardLayout.tsx. */
module DashboardLayout {
  import opened Options
  import opened Roles
  import opened Text
  import Routes
  import RouteTableFacts

  datatype Icon = ShieldIcon | StethoscopeIcon | HeartIcon | UserIcon
                | HomeIcon | UsersIcon | SettingsIcon | CalendarIcon | ClipboardIcon

  /** `roleIcons`. */
  function RoleIcon(r: Role): Icon
  {
    match r
    case SuperAdmin => ShieldIcon
    case Doctor => StethoscopeIcon
    case Nurse => HeartIcon
    case Patient => UserIcon
  }

  /** `roleColors`. */
  function RoleColor(r: Role): string
  {
    match r
    case SuperAdmin => "purple"
    case Doctor => "blue"
    case Nurse => "green"
    case Patient => "orange"
  }

  datatype NavItem = NavItem(name: string, icon: Icon, href: string)

  /** The placeholder link of entries that lead nowhere yet. */
  const Placeholder: string := "#"

  /** `navigationItems`. */
  function NavigationItems(r: Role): seq<NavItem>
  {
    match r
    case SuperAdmin => [
      NavItem("Dashboard", HomeIcon, "/dashboard/super-admin"),
      NavItem("User Management", UsersIcon, Placeholder),
      NavItem("System Settings", SettingsIcon, Placeholder)]
    case Doctor => [
      NavItem("Dashboard", HomeIcon, "/dashboard/doctor"),
      NavItem("Appointments", CalendarIcon, Placeholder),
      NavItem("Availability", UsersIcon, "/doctor-availability")]
    case Nurse => [
      NavItem("Dashboard", HomeIcon, "/dashboard/nurse"),
      NavItem("Tasks", ClipboardIcon, "/tasks"),
      NavItem("Assignments", UsersIcon, "/nurse-assignment")]
    case Patient => [
      NavItem("Dashboard", HomeIcon, "/dashboard/patient"),
      NavItem("Appointments", CalendarIcon, Placeholder),
      NavItem("Records", UsersIcon, Placeholder)]
  }

  /** The Tailwind classes of an accent colour, by their naming pattern. */
  function AccentClasses(color: string): string
  {
    "border-" + color + "-500 text-" + color + "-600"
  }

  /** The five colours `getColorClasses` has an entry for. */
  predicate IsPaletteColor(color: string)
  {
    color == "purple" || color == "blue" || color == "green" || color == "orange" || color == "red"
  }

  /** `getColorClasses(color)`: the listed colours get their own classes, any
      other string falls back to blue. */
  function ColorClasses(color: string): (r: string)
    ensures !IsPaletteColor(color) ==> r == AccentClasses("blue")
  {
    if color == "purple" then "border-purple-500 text-purple-600"
    else if color == "blue" then "border-blue-500 text-blue-600"
    else if color == "green" then "border-green-500 text-green-600"
    else if color == "orange" then "border-orange-500 text-orange-600"
    else if color == "red" then "border-red-500 text-red-600"
    else "border-blue-500 text-blue-600"
  }

  /** The five listed colours get the classes named after them. */
  lemma PaletteFollowsPattern(color: string)
    requires IsPaletteColor(color)
    ensures ColorClasses(color) == AccentClasses(color)
  {
    if color == "purple" { PurpleClasses(); }
    if color == "blue" { BlueClasses(); }
    if color == "green" { GreenClasses(); }
    if color == "orange" { OrangeClasses(); }
    if color == "red" { RedClasses(); }
  }

  /** Each listed colour on its own, so each literal is compared in a small context. */
  lemma PurpleClasses()
    ensures ColorClasses("purple") == AccentClasses("purple")
  {
  }

  lemma BlueClasses()
    ensures ColorClasses("blue") == AccentClasses("blue")
  {
  }

  lemma GreenClasses()
    ensures ColorClasses("green") == AccentClasses("green")
  {
  }

  lemma OrangeClasses()
    ensures ColorClasses("orange") == AccentClasses("orange")
  {
  }

  lemma RedClasses()
    ensures ColorClasses("red") == AccentClasses("red")
  {
  }

  /** `userRole.replace('-', ' ')`, the role caption under the user's name. */
  function RoleLabel(r: Role): (s: string)
    ensures |s| == |Key(r)|
  {
    ReplaceFirst(Key(r), '-', ' ')
  }

  /** `user.name.split(' ')[0]`, the name in the greeting. */
  function GreetingName(name: string): (r: string)
    ensures |r| <= |name| && r == name[..|r|] && Text.Lacks(r, ' ')
    ensures r == name || name[|r|] == ' '
  {
    FirstWord(name)
  }

  /** `user.name.charAt(0)`, the avatar letter. */
  function AvatarLetter(name: string): (r: string)
    ensures name == [] ==> r == []
    ensures name != [] ==> r == [name[0]]
  {
    FirstChar(name)
  }

  /** Each role's first entry is its own dashboard, and every role has three entries. */
  lemma NavigationStartsAtDashboard(r: Role)
    ensures |NavigationItems(r)| == 3
    ensures NavigationItems(r)[0] == NavItem("Dashboard", HomeIcon, Routes.DashboardPath(r))
  {
    match r
    case SuperAdmin => assert Routes.DashboardPath(r) == "/dashboard/super-admin";
    case Doctor => assert Routes.DashboardPath(r) == "/dashboard/doctor";
    case Nurse => assert Routes.DashboardPath(r) == "/dashboard/nurse";
    case Patient => assert Routes.DashboardPath(r) == "/dashboard/patient";
  }

  /** Every role's colour has classes of its own: no role falls back to blue by accident. */
  lemma RoleColorsArePalette(r: Role)
    ensures IsPaletteColor(RoleColor(r))
    ensures ColorClasses(RoleColor(r)) == AccentClasses(RoleColor(r))
  {
    PaletteFollowsPattern(RoleColor(r));
  }

  /** Different roles get different icons and different colours. */
  lemma RoleTablesInjective(r: Role, q: Role)
    requires r != q
    ensures RoleIcon(r) != RoleIcon(q)
    ensures RoleColor(r) != RoleColor(q)
  {
  }

  /** Only the first hyphen becomes a space: "super-admin" reads "super admin",
      and the other roles, which have no hyphen, are unchanged. */
  lemma RoleLabels(r: Role)
    ensures RoleLabel(r) == if r == SuperAdmin then "super admin" else Key(r)
  {
    match r
    case SuperAdmin => SuperAdminLabel(Key(r));
    case Doctor => assert Text.Lacks(Key(r), '-');
    case Nurse => assert Text.Lacks(Key(r), '-');
    case Patient => assert Text.Lacks(Key(r), '-');
  }

  lemma SuperAdminLabel(k: string)
    requires k == "super-admin"
    ensures ReplaceFirst(k, '-', ' ') == "super admin"
  {
    assert k[5] == '-' && k[..5] == "super";
    IndexOfFirst(k, '-', 5);
    assert k[6..] == "admin";
    assert ReplaceFirst(k, '-', ' ') == k[..5] + [' '] + k[6..];
  }

  /** Every navigation entry that is a real link leads to a page the route
      table of src/App.tsx lets the role see. */
  lemma NavigationLinksAreAdmitted(r: Role, u: User, i: nat)
    requires u.role == r && i < |NavigationItems(r)| && NavigationItems(r)[i].href != Placeholder
    ensures Routes.Admits(Routes.RouterRoutes, NavigationItems(r)[i].href, u)
  {
    var href := NavigationItems(r)[i].href;
    RouteTableFacts.TablesAgree(href, false, Some(u));
    if i == 0 {
      NavigationStartsAtDashboard(r);
      RouteTableFacts.DashboardAdmitsOnlyOwner(r, u);
    } else if r == Doctor {
      RouteTableFacts.DoctorAvailabilityAccess(u);
    } else if i == 1 {
      RouteTableFacts.TasksAccess(u);
    } else {
      RouteTableFacts.NurseAssignmentAccess(u);
    }
  }
}

=== FILE: lists.dfy ===
/** `Array.prototype.filter` over sequences, with the facts the feature lists rely on. */
module Lists {

  /** The elements of `s` that satisfy `keep`, in their original order. */
  function Filter<T>(s: seq<T>, keep: T -> bool): (r: seq<T>)
    ensures |r| <= |s|
    ensures forall i :: 0 <= i < |r| ==> keep(r[i])
    decreases |s|
  {
    if s == [] then []
    else (if keep(s[0]) then [s[0]] else []) + Filter(s[1..], keep)
  }

  /** Filtering keeps exactly the elements that satisfy the predicate: every
      kept element comes from `s`, and every element of `s` that satisfies it
      is kept. */
  lemma {:induction false} FilterMembers<T>(s: seq<T>, keep: T -> bool)
    ensures forall i :: 0 <= i < |Filter(s, keep)| ==> Filter(s, keep)[i] in s
    ensures forall i :: 0 <= i < |s| && keep(s[i]) ==> s[i] in Filter(s, keep)
    decreases |s|
  {
    if s != [] {
      FilterMembers(s[1..], keep);
      var r := Filter(s, keep);
      var rest := Filter(s[1..], keep);
      if keep(s[0]) {
        assert r == [s[0]] + rest;
      } else {
        assert r == rest;
      }
      forall i | 0 <= i < |r|
        ensures r[i] in s
      {
        if !keep(s[0]) || i > 0 {
          var j := if keep(s[0]) then i - 1 else i;
          assert r[i] == rest[j] && rest[j] in s[1..];
        }
      }
    }
  }

  /** Concatenation regroups freely. */
  lemma AppendAssoc<T>(a: seq<T>, b: seq<T>, c: seq<T>)
    ensures (a + b) + c == a + (b + c)
  {
  }

  /** Filtering a concatenation filters each part: together with the one-element
      case this says the kept elements stay in their original relative order. */
  lemma {:induction false} FilterAppend<T>(a: seq<T>, b: seq<T>, keep: T -> bool)
    ensures Filter(a + b, keep) == Filter(a, keep) + Filter(b, keep)
    decreases |a|
  {
    if a == [] {
      assert a + b == b;
    } else {
      assert (a + b)[0] == a[0];
      assert (a + b)[1..] == a[1..] + b;
      FilterAppend(a[1..], b, keep);
    }
  }

  /** A sequence whose every element is kept is returned unchanged. */
  lemma {:induction false} FilterKeepsAll<T>(s: seq<T>, keep: T -> bool)
    requires forall i :: 0 <= i < |s| ==> keep(s[i])
    ensures Filter(s, keep) == s
    decreases |s|
  {
    if s != [] {
      FilterKeepsAll(s[1..], keep);
    }
  }

  /** Filtering twice with the same predicate is the same as filtering once. */
  lemma FilterIdempotent<T>(s: seq<T>, keep: T -> bool)
    ensures Filter(Filter(s, keep), keep) == Filter(s, keep)
  {
    var r := Filter(s, keep);
    FilterKeepsAll(r, keep);
  }

  /** A predicate and its negation split a sequence: the two parts together have
      exactly the elements of the whole, with multiplicity. */
  lemma {:induction false} FilterSplit<T>(s: seq<T>, keep: T -> bool, drop: T -> bool)
    requires forall i :: 0 <= i < |s| ==> drop(s[i]) == !keep(s[i])
    ensures multiset(Filter(s, keep)) + multiset(Filter(s, drop)) == multiset(s)
    decreases |s|
  {
    if s != [] {
      FilterSplit(s[1..], keep, drop);
      assert s == [s[0]] + s[1..];
    }
  }

  /** The split of `FilterSplit`, with the lengths that follow from it. */
  lemma FilterPartition<T>(s: seq<T>, keep: T -> bool, drop: T -> bool)
    requires forall i :: 0 <= i < |s| ==> drop(s[i]) == !keep(s[i])
    ensures |Filter(s, keep)| + |Filter(s, drop)| == |s|
    ensures multiset(Filter(s, keep)) + multiset(Filter(s, drop)) == multiset(s)
  {
    FilterSplit(s, keep, drop);
    assert |multiset(Filter(s, keep)) + multiset(Filter(s, drop))| == |multiset(s)|;
  }

  /** Two filters commute: which one runs first does not matter. */
  lemma {:induction false} FilterCommute<T>(s: seq<T>, p: T -> bool, q: T -> bool)
    ensures Filter(Filter(s, p), q) == Filter(Filter(s, q), p)
    decreases |s|
  {
    if s != [] {
      var head := [s[0]];
      assert s == head + s[1..];
      FilterAppend(head, s[1..], p);
      FilterAppend(head, s[1..], q);
      FilterAppend(Filter(head, p), Filter(s[1..], p), q);
      FilterAppend(Filter(head, q), Filter(s[1..], q), p);
      FilterCommute(s[1..], p, q);
    }
  }
}

=== FILE: login_page.dfy ===
/** The login screen of src/pages/LoginPage.tsx: where it sends a visitor, which
    role parameters it accepts, and what its submit handler does. */
module LoginPage {
  import opened Options
  import opened Roles
  import AuthContext
  import Routes
  import RouteTableFacts

  /** `Object.keys(roleIcons)`, in declaration order. */
  const RoleIconKeys: seq<string> := ["super-admin", "doctor", "nurse", "patient"]

  /** The `:role` URL parameter checked against the keys of `roleIcons`, then
      read as a role. */
  function ValidateRole(param: Option<string>): (r: Option<Role>)
    ensures r.Some? <==> param.Some? && param.value in RoleIconKeys
    ensures r.Some? ==> param == Some(Key(r.value))
    ensures forall q: Role :: param == Some(Key(q)) ==> r == Some(q)
  {
    if param.None? || param.value !in RoleIconKeys then None
    else ParseKey(param.value)
  }

  /** What the page renders. Its redirect and spinner mirror `Routes.View`;
      the form is its own case because it carries the role read from the URL. */
  datatype View = Navigate(to: string) | Spinner | ShowForm(role: Role)

  /** A signed-in visitor goes to their own dashboard before anything else is
      checked; an unknown role goes to the entry page; only then does loading
      show the spinner. */
  function Render(user: Option<User>, isLoading: bool, param: Option<string>): (v: View)
    ensures user.Some? ==> v == Navigate(Routes.DashboardPath(user.value.role))
    ensures user.None? && ValidateRole(param).None? ==> v == Navigate(Routes.EntryPath)
    ensures user.None? && ValidateRole(param).Some? && isLoading ==> v == Spinner
    ensures v.ShowForm? <==> user.None? && !isLoading && ValidateRole(param).Some?
    ensures v.ShowForm? ==> param == Some(Key(v.role))
  {
    if user.Some? then Navigate(Routes.DashboardPath(user.value.role))
    else if ValidateRole(param).None? then Navigate(Routes.EntryPath)
    else if isLoading then Spinner
    else ShowForm(ValidateRole(param).value)
  }

  datatype LoginForm = LoginForm(email: string, password: string)

  /** The page's local state: the form and the re-entrancy flag. */
  datatype Page = Page(form: LoginForm, isSubmitting: bool)

  /** What `login` is called with. */
  datatype Credentials = Credentials(email: string, password: string, role: Role)

  /** The outcome of a submit: the page, the session, and the call made, if any. */
  datatype Submitted = Submitted(page: Page, session: AuthContext.Session, request: Option<Credentials>)

  /** `handleSubmit`: ignored while a submit is in flight; otherwise `login` is
      called with the form's email and password and the role from the URL, and
      the flag is cleared once it returns, whatever the result. */
  function HandleSubmit(p: Page, role: Role, s: AuthContext.Session, response: AuthContext.Response,
                        codec: AuthContext.Codec): (r: Submitted)
    ensures p.isSubmitting ==> r == Submitted(p, s, None)
    ensures !p.isSubmitting ==>
              && r.request == Some(Credentials(p.form.email, p.form.password, role))
              && r.page == Page(p.form, false)
              && r.session == AuthContext.Login(s, response, codec).session
  {
    if p.isSubmitting then Submitted(p, s, None)
    else
      var busy := p.(isSubmitting := true);
      var request := Credentials(busy.form.email, busy.form.password, role);
      var c := AuthContext.Login(s, response, codec);
      Submitted(busy.(isSubmitting := false), c.session, Some(request))
  }

  /** After a successful submit the page, rendered again, redirects the user to
      their own dashboard, and the route table lets them in there. */
  lemma SuccessfulLoginLandsOnDashboard(p: Page, role: Role, s: AuthContext.Session, u: User,
                                        param: Option<string>, codec: AuthContext.Codec)
    requires !p.isSubmitting
    ensures var r := HandleSubmit(p, role, s, AuthContext.Accepted(u), codec);
            && Render(r.session.user, r.session.isLoading, param) == Navigate(Routes.DashboardPath(u.role))
            && Routes.Access(Routes.RouterRoutes, Routes.DashboardPath(u.role), r.session.isLoading, r.session.user)
               == Routes.Show(Routes.Dashboard(u.role))
  {
    RouteTableFacts.DashboardAdmitsOnlyOwner(u.role, u);
    RouteTableFacts.TablesAgree(Routes.DashboardPath(u.role), false, Some(u));
  }
}

=== FILE: nurse_assignment.dfy ===
/** The nurse–doctor assignment list of src/pages/NurseAssignment.tsx: add,
    delete, the shift labels and the "Active" counter. The id, which the screen
    takes from the clock, is an input. */
module NurseAssignment {
  import opened Options
  import opened Lists

  datatype Assignment = Assignment(id: int, doctor: string, nurse: string, shift: string, status: string)

  /** The "create assignment" form. */
  datatype Draft = Draft(doctor: string, nurse: string, shift: string)

  datatype Screen = Screen(assignments: seq<Assignment>, draft: Draft)

  const EmptyDraft: Draft := Draft("", "", "morning")

  const InitialAssignments: seq<Assignment> := [
    Assignment(1, "Dr. Smith", "Nurse Johnson", "morning", "active"),
    Assignment(2, "Dr. Williams", "Nurse Brown", "afternoon", "active")
  ]

  const Initial: Screen := Screen(InitialAssignments, EmptyDraft)

  /** A shift option of the form: its value and the title shown for it. */
  datatype ShiftOption = ShiftOption(value: string, title: string)

  const Shifts: seq<ShiftOption> := [
    ShiftOption("morning", "Morning (7AM - 3PM)"),
    ShiftOption("afternoon", "Afternoon (3PM - 11PM)"),
    ShiftOption("night", "Night (11PM - 7AM)")
  ]

  /** `shifts.find(s => s.value === shift)?.label`. */
  function FindLabel(options: seq<ShiftOption>, shift: string): (r: Option<string>)
    ensures r.None? <==> forall i :: 0 <= i < |options| ==> options[i].value != shift
    ensures r.Some? ==> exists i :: 0 <= i < |options| && options[i].value == shift && options[i].title == r.value
                                     && forall j :: 0 <= j < i ==> options[j].value != shift
    decreases |options|
  {
    if options == [] then None
    else if options[0].value == shift then Some(options[0].title)
    else
      var r := FindLabel(options[1..], shift);
      assert forall i :: 0 <= i < |options| - 1 ==> options[1..][i] == options[i + 1];
      r
  }

  /** The label `find` reports is the one of the first option with the value:
      any such position determines the result. */
  lemma {:induction false} FindLabelAt(options: seq<ShiftOption>, shift: string, k: nat)
    requires k < |options| && options[k].value == shift
    requires forall j :: 0 <= j < k ==> options[j].value != shift
    ensures FindLabel(options, shift) == Some(options[k].title)
    decreases k
  {
    if k > 0 {
      assert options[0].value != shift;
      FindLabelAt(options[1..], shift, k - 1);
    }
  }

  /** The label of a shift value in the form's option list. */
  function ShiftLabel(shift: string): Option<string>
  {
    FindLabel(Shifts, shift)
  }

  /** `handleSubmit`: with no doctor or no nurse chosen nothing happens;
      otherwise one active assignment is appended and the form is reset. */
  function Submit(s: Screen, id: int): (r: Screen)
    ensures s.draft.doctor == "" || s.draft.nurse == "" ==> r == s
    ensures s.draft.doctor != "" && s.draft.nurse != "" ==>
              && r.assignments == s.assignments + [Assignment(id, s.draft.doctor, s.draft.nurse, s.draft.shift, "active")]
              && r.draft == EmptyDraft
  {
    if s.draft.doctor == "" || s.draft.nurse == "" then s
    else
      var a := Assignment(id, s.draft.doctor, s.draft.nurse, s.draft.shift, "active");
      Screen(s.assignments + [a], EmptyDraft)
  }

  /** The predicate `deleteAssignment(id)` filters by. */
  function IdIsNot(id: int): Assignment -> bool
  {
    (a: Assignment) => a.id != id
  }

  /** The entries `deleteAssignment(id)` removes. */
  function HasId(id: int): Assignment -> bool
  {
    (a: Assignment) => a.id == id
  }

  /** `deleteAssignment(id)`: drops exactly the entries carrying that id; what
      it keeps and what it drops add up to the list, with multiplicity. */
  function Delete(assignments: seq<Assignment>, id: int): (r: seq<Assignment>)
    ensures forall i :: 0 <= i < |r| ==> r[i].id != id && r[i] in assignments
    ensures forall i :: 0 <= i < |assignments| && assignments[i].id != id ==> assignments[i] in r
    ensures multiset(r) + multiset(Filter(assignments, HasId(id))) == multiset(assignments)
  {
    FilterMembers(assignments, IdIsNot(id));
    FilterPartition(assignments, IdIsNot(id), HasId(id));
    Filter(assignments, IdIsNot(id))
  }

  /** The number in the "Active" badge: the length of the list, whatever the statuses. */
  function ActiveCount(assignments: seq<Assignment>): nat
  {
    |assignments|
  }

  predicate IsActive(a: Assignment) { a.status == "active" }

  /** Every entry is active. */
  predicate AllActive(assignments: seq<Assignment>)
  {
    forall i :: 0 <= i < |assignments| ==> assignments[i].status == "active"
  }

  /** The three shift values have their labels, and no other value has one. */
  lemma ShiftLabels(shift: string)
    ensures ShiftLabel("morning") == Some("Morning (7AM - 3PM)")
    ensures ShiftLabel("afternoon") == Some("Afternoon (3PM - 11PM)")
    ensures ShiftLabel("night") == Some("Night (11PM - 7AM)")
    ensures shift != "morning" && shift != "afternoon" && shift != "night" ==> ShiftLabel(shift).None?
  {
    if shift != "morning" && shift != "afternoon" && shift != "night" {
      UnknownShiftHasNoLabel(shift);
    }
  }

  /** A value that is none of the three options has no label. */
  lemma UnknownShiftHasNoLabel(shift: string)
    requires shift != "morning" && shift != "afternoon" && shift != "night"
    ensures ShiftLabel(shift).None?
  {
    assert forall i :: 0 <= i < |Shifts| ==> Shifts[i].value != shift;
  }

  /** Deleting the same id twice is the same as deleting it once. */
  lemma DeleteIdempotent(assignments: seq<Assignment>, id: int)
    ensures Delete(Delete(assignments, id), id) == Delete(assignments, id)
  {
    FilterIdempotent(assignments, IdIsNot(id));
  }

  /** Deleting keeps the surviving entries in their order. */
  lemma DeleteKeepsOrder(front: seq<Assignment>, back: seq<Assignment>, id: int)
    ensures Delete(front + back, id) == Delete(front, id) + Delete(back, id)
  {
    FilterAppend(front, back, IdIsNot(id));
  }

  /** The initial assignments are all active. */
  lemma InitialAllActive()
    ensures AllActive(InitialAssignments)
  {
  }

  /** Submitting only ever adds active assignments. */
  lemma SubmitKeepsActive(s: Screen, id: int)
    requires AllActive(s.assignments)
    ensures AllActive(Submit(s, id).assignments)
  {
  }

  /** Deleting only removes assignments. */
  lemma DeleteKeepsActive(assignments: seq<Assignment>, del: int)
    requires AllActive(assignments)
    ensures AllActive(Delete(assignments, del))
  {
    var r := Delete(assignments, del);
    forall i | 0 <= i < |r|
      ensures r[i].status == "active"
    {
      var j :| 0 <= j < |assignments| && assignments[j] == r[i];
    }
  }

  /** Since every entry the screen ever holds is active (the lemmas above), the
      badge, which counts the whole list, counts exactly the active assignments. */
  lemma ActiveBadgeIsExact(assignments: seq<Assignment>)
    requires AllActive(assignments)
    ensures ActiveCount(assignments) == |Filter(assignments, IsActive)|
  {
    FilterKeepsAll(assignments, IsActive);
  }
}

=== FILE: options.dfy ===
/** Optional values and error-carrying results, used wherever the source has
    `null`/`undefined` or throws. */
module Options {

  /** A value that may be absent (`null` or `undefined` in the source). */
  datatype Option<+T> = None | Some(value: T)

  /** The outcome of an operation that either yields a value or fails with an error. */
  datatype Result<+T, +E> = Ok(value: T) | Err(error: E)
}

=== FILE: protected_route.dfy ===
/** The route guard of client/src/components/ProtectedRoute.tsx: a pure decision
    over the session's loading flag, its user and the page's allowed roles. */
module ProtectedRoute {
  import opened Options
  import opened Roles

  /** What the guard renders: the loading spinner, a redirect, or the guarded page.
      It does not know which page it guards, so `Render` carries none;
      `Routes.Render` fills the page in. */
  datatype Decision = Spinner | Redirect(to: string) | Render

  /** The public entry page every refusal sends the visitor to. */
  const EntryPage: string := "/"

  function Decide(isLoading: bool, user: Option<User>, allowedRoles: seq<Role>): (d: Decision)
    // while the session is still hydrating nothing else is looked at
    ensures isLoading ==> d == Spinner
    // signed out and wrong role are refused the same way
    ensures !isLoading && user.None? ==> d == Redirect(EntryPage)
    ensures !isLoading && user.Some? && user.value.role !in allowedRoles ==> d == Redirect(EntryPage)
    ensures d == Render <==> !isLoading && user.Some? && user.value.role in allowedRoles
    ensures d.Redirect? ==> d.to == EntryPage
  {
    if isLoading then Spinner
    else if user.None? then Redirect(EntryPage)
    else if user.value.role !in allowedRoles then Redirect(EntryPage)
    else Render
  }

  /** Only the role of the user matters: two users with the same role get the
      same decision, whatever their id, name, email or role attributes. */
  lemma DecisionDependsOnlyOnRole(isLoading: bool, u: User, v: User, allowedRoles: seq<Role>)
    requires u.role == v.role
    ensures Decide(isLoading, Some(u), allowedRoles) == Decide(isLoading, Some(v), allowedRoles)
  {
  }
}

=== FILE: roles.dfy ===
/** The four user roles of the portal and the user record the client keeps in
    its session (client/src/contexts/AuthContext.tsx). */
module Roles {
  import opened Options

  /** `UserRole`: a closed set of four roles. */
  datatype Role = SuperAdmin | Doctor | Nurse | Patient

  /** The string by which each role appears in URLs and in JSON; it is always
      a single non-empty path segment. */
  function Key(r: Role): (k: string)
    ensures k != [] && forall i :: 0 <= i < |k| ==> k[i] != '/'
  {
    match r
    case SuperAdmin => "super-admin"
    case Doctor => "doctor"
    case Nurse => "nurse"
    case Patient => "patient"
  }

  /** Reads a role back from its string; any other string is not a role. */
  function ParseKey(s: string): (r: Option<Role>)
    ensures r.Some? ==> Key(r.value) == s
    ensures r.None? <==> forall q: Role :: Key(q) != s
  {
    if s == "super-admin" then Some(SuperAdmin)
    else if s == "doctor" then Some(Doctor)
    else if s == "nurse" then Some(Nurse)
    else if s == "patient" then Some(Patient)
    else None
  }

  /** Distinct roles have distinct strings, so a role string names exactly one role. */
  lemma KeyRoundTrip(r: Role)
    ensures ParseKey(Key(r)) == Some(r)
  {
  }

  /** The client-side `User`; the three role attributes are optional. */
  datatype User = User(
    id: int,
    email: string,
    name: string,
    role: Role,
    specialty: Option<string>,
    department: Option<string>,
    patientId: Option<string>)
}

=== FILE: routes.dfy ===
/** The two route tables, client/src/App.tsx (wouter `Switch`) and src/App.tsx
    (react-router `Routes`), as data, and the page each path shows for a given
    session. */
module Routes {
  import opened Options
  import opened Roles
  import ProtectedRoute

  /** The page components a route can render. */
  datatype Page =
    | HomePage
    | LoginPage
    | SignupPage
    | Dashboard(owner: Role)
    | DoctorAvailability
    | NurseAssignment
    | TaskManager

  /** A route's path pattern: a literal path, a literal prefix followed by one
      non-empty `:param` segment, or the catch-all. */
  datatype Pattern = Exact(path: string) | OneParam(prefix: string) | CatchAll

  /** What a matched route renders: a public page, a page behind the guard with
      its allowed roles, or a redirect. */
  datatype Element = Public(page: Page) | Guarded(allowedRoles: seq<Role>, page: Page) | RedirectTo(target: string)

  datatype RouteDecl = RouteDecl(pattern: Pattern, element: Element)

  /** What the visitor ends up seeing. `Blank` is what a router shows when no
      route matches at all. It is distinct from the pages' own views because
      it names the routed page, which the login and signup pages never do. */
  datatype View = Spinner | Navigate(to: string) | Show(page: Page) | Blank

  /** `/dashboard/${role}`: the dashboard path of a role. */
  function DashboardPath(r: Role): string
  {
    "/dashboard/" + Key(r)
  }

  const EntryPath: string := "/"
  const SignupPath: string := "/signup"
  const LoginPrefix: string := "/login/"
  const DoctorAvailabilityPath: string := "/doctor-availability"
  const NurseAssignmentPath: string := "/nurse-assignment"
  const TasksPath: string := "/tasks"

  /** Whether a pattern matches a path. */
  predicate Matches(p: Pattern, path: string)
    // a `:param` segment is never empty, so the bare prefix does not match
    ensures p.OneParam? && Matches(p, path) ==> |path| > |p.prefix| && path != p.prefix
    // the catch-all matches every path, the empty one included
    ensures p.CatchAll? ==> Matches(p, path)
  {
    match p
    case Exact(literal) => |path| == |literal| && path == literal
    case OneParam(prefix) =>
      |prefix| < |path| && path[..|prefix|] == prefix && forall k :: |prefix| <= k < |path| ==> path[k] != '/'
    case CatchAll => true
  }

  /** client/src/App.tsx, in declaration order. */
  const ClientRoutes: seq<RouteDecl> := [
    RouteDecl(Exact(EntryPath), Public(HomePage)),
    RouteDecl(OneParam(LoginPrefix), Public(LoginPage)),
    RouteDecl(Exact(SignupPath), Public(SignupPage)),
    RouteDecl(Exact("/dashboard/super-admin"), Guarded([SuperAdmin], Dashboard(SuperAdmin))),
    RouteDecl(Exact("/dashboard/doctor"), Guarded([Doctor], Dashboard(Doctor))),
    RouteDecl(Exact("/dashboard/nurse"), Guarded([Nurse], Dashboard(Nurse))),
    RouteDecl(Exact("/dashboard/patient"), Guarded([Patient], Dashboard(Patient))),
    RouteDecl(Exact(DoctorAvailabilityPath), Guarded([Doctor, Nurse, SuperAdmin], DoctorAvailability)),
    RouteDecl(Exact(NurseAssignmentPath), Guarded([Nurse, SuperAdmin], NurseAssignment)),
    RouteDecl(Exact(TasksPath), Guarded([Nurse, Doctor], TaskManager)),
    RouteDecl(CatchAll, RedirectTo(EntryPath))
  ]

  /** src/App.tsx, in declaration order; its `path="*"` route is the catch-all. */
  const RouterRoutes: seq<RouteDecl> := [
    RouteDecl(Exact(EntryPath), Public(HomePage)),
    RouteDecl(OneParam(LoginPrefix), Public(LoginPage)),
    RouteDecl(Exact(SignupPath), Public(SignupPage)),
    RouteDecl(Exact("/dashboard/super-admin"), Guarded([SuperAdmin], Dashboard(SuperAdmin))),
    RouteDecl(Exact("/dashboard/doctor"), Guarded([Doctor], Dashboard(Doctor))),
    RouteDecl(Exact("/dashboard/nurse"), Guarded([Nurse], Dashboard(Nurse))),
    RouteDecl(Exact("/dashboard/patient"), Guarded([Patient], Dashboard(Patient))),
    RouteDecl(Exact(DoctorAvailabilityPath), Guarded([Doctor, Nurse, SuperAdmin], DoctorAvailability)),
    RouteDecl(Exact(NurseAssignmentPath), Guarded([Nurse, SuperAdmin], NurseAssignment)),
    RouteDecl(Exact(TasksPath), Guarded([Nurse, Doctor], TaskManager)),
    RouteDecl(CatchAll, RedirectTo(EntryPath))
  ]

  /** The first declaration whose pattern matches the path. */
  function Resolve(table: seq<RouteDecl>, path: string): Option<Element>
  {
    ResolveFrom(table, path, 0)
  }

  /** The first declaration at or after position `k` whose pattern matches. */
  function ResolveFrom(table: seq<RouteDecl>, path: string, k: nat): (r: Option<Element>)
    // a table that ends in the catch-all always resolves
    ensures k < |table| && table[|table| - 1].pattern.CatchAll? ==> r.Some?
    // whatever is found is one of the declarations at or after `k`
    ensures r.Some? ==> exists i :: k <= i < |table| && table[i].element == r.value
    decreases |table| - k
  {
    if k >= |table| then None
    else if Matches(table[k].pattern, path) then Some(table[k].element)
    else ResolveFrom(table, path, k + 1)
  }

  /** What a path shows for a session with the given loading flag and user. */
  function Access(table: seq<RouteDecl>, path: string, isLoading: bool, user: Option<User>): (v: View)
    // a table ending in the catch-all never leaves the visitor on a blank view
    ensures table != [] && table[|table| - 1].pattern.CatchAll? ==> v != Blank
    ensures v == Blank <==> Resolve(table, path).None?
  {
    Render(Resolve(table, path), isLoading, user)
  }

  /** What the resolved route renders; `None` when no route matched. */
  function Render(route: Option<Element>, isLoading: bool, user: Option<User>): (v: View)
    // nothing is shown exactly when no route matched
    ensures v == Blank <==> route.None?
    // public pages ignore the session
    ensures route.Some? && route.value.Public? ==> v == Show(route.value.page)
    // a guarded page is shown exactly when the session is loaded, signed in and allowed
    ensures route.Some? && route.value.Guarded? ==>
              (v == Show(route.value.page) <==>
                 !isLoading && user.Some? && user.value.role in route.value.allowedRoles)
    ensures route.Some? && route.value.Guarded? && v.Navigate? ==> v.to == ProtectedRoute.EntryPage
    // while the session loads, a guarded page shows the spinner
    ensures route.Some? && route.value.Guarded? && isLoading ==> v == Spinner
    // a loaded visitor who is signed out or not allowed is sent to the entry page
    ensures route.Some? && route.value.Guarded? && !isLoading &&
              (user.None? || user.value.role !in route.value.allowedRoles) ==>
              v == Navigate(ProtectedRoute.EntryPage)
    // a redirect declaration navigates to its target, whatever the session
    ensures route.Some? && route.value.RedirectTo? ==> v == Navigate(route.value.target)
  {
    match route
    case None => Blank
    case Some(Public(page)) => Show(page)
    case Some(Guarded(allowedRoles, page)) =>
      (match ProtectedRoute.Decide(isLoading, user, allowedRoles)
       case Spinner => Spinner
       case Redirect(to) => Navigate(to)
       case Render => Show(page))
    case Some(RedirectTo(target)) => Navigate(target)
  }

  /** A role may see the page at `path` once signed in. */
  predicate Admits(table: seq<RouteDecl>, path: string, u: User)
  {
    Access(table, path, false, Some(u)).Show?
  }
}

module RouteTableFacts {
  import opened Options
  import opened Roles
  import opened Routes

  /** Declaration `i` is the first one whose pattern matches the path. */
  predicate FirstMatchAt(table: seq<RouteDecl>, path: string, i: nat)
  {
    && i < |table|
    && Matches(table[i].pattern, path)
    && forall j :: 0 <= j < i ==> !Matches(table[j].pattern, path)
  }

  /** Resolution is first-match: from position `k` on, nothing resolves exactly
      when no declaration matches, and otherwise the result is the element of
      the earliest match. */
  lemma {:induction false} ResolveFromSpec(table: seq<RouteDecl>, path: string, k: nat)
    ensures ResolveFrom(table, path, k).None? <==>
              forall i :: k <= i < |table| ==> !Matches(table[i].pattern, path)
    ensures ResolveFrom(table, path, k).Some? ==>
              exists i :: k <= i < |table| && Matches(table[i].pattern, path)
                          && ResolveFrom(table, path, k).value == table[i].element
                          && forall j :: k <= j < i ==> !Matches(table[j].pattern, path)
    decreases |table| - k
  {
    if k < |table| && !Matches(table[k].pattern, path) {
      ResolveFromSpec(table, path, k + 1);
    }
  }

  /** Resolution picks the first matching declaration. */
  lemma ResolveFirst(table: seq<RouteDecl>, path: string, i: nat)
    requires FirstMatchAt(table, path, i)
    ensures Resolve(table, path) == Some(table[i].element)
  {
    ResolveFromSpec(table, path, 0);
  }

  /** A path whose second character is not `l` does not match the login pattern. */
  lemma NotLoginPath(path: string)
    requires 2 <= |path| && path[1] != 'l'
    ensures !Matches(OneParam(LoginPrefix), path)
  {
    if 7 < |path| {
      assert path[..7][1] != LoginPrefix[1];
    }
  }

  /** Where the table declares each role's dashboard. */
  function DashboardIndex(r: Role): nat
  {
    match r
    case SuperAdmin => 3
    case Doctor => 4
    case Nurse => 5
    case Patient => 6
  }

  /** Each role's dashboard path first matches its own dashboard route, which
      is guarded for that role alone. */
  lemma DashboardMatch(r: Role)
    ensures FirstMatchAt(ClientRoutes, DashboardPath(r), DashboardIndex(r))
    ensures ClientRoutes[DashboardIndex(r)].element == Guarded([r], Dashboard(r))
  {
    match r
    case SuperAdmin => SuperAdminDashboardMatch();
    case Doctor => DoctorDashboardMatch();
    case Nurse => NurseDashboardMatch();
    case Patient => PatientDashboardMatch();
  }

  /** Each literal path of the table first matches the route that declares it. */
  lemma SuperAdminDashboardMatch()
    ensures FirstMatchAt(ClientRoutes, "/dashboard/super-admin", 3)
  {
    NotLoginPath("/dashboard/super-admin");
  }

  lemma DoctorDashboardMatch()
    ensures FirstMatchAt(ClientRoutes, "/dashboard/doctor", 4)
  {
    NotLoginPath("/dashboard/doctor");
  }

  lemma NurseDashboardMatch()
    ensures FirstMatchAt(ClientRoutes, "/dashboard/nurse", 5)
  {
    NotLoginPath("/dashboard/nurse");
  }

  lemma PatientDashboardMatch()
    ensures FirstMatchAt(ClientRoutes, "/dashboard/patient", 6)
  {
    NotLoginPath("/dashboard/patient");
  }

  lemma DoctorAvailabilityMatch()
    ensures FirstMatchAt(ClientRoutes, DoctorAvailabilityPath, 7)
  {
    NotLoginPath(DoctorAvailabilityPath);
  }

  lemma NurseAssignmentMatch()
    ensures FirstMatchAt(ClientRoutes, NurseAssignmentPath, 8)
  {
    NotLoginPath(NurseAssignmentPath);
  }

  lemma TasksMatch()
    ensures FirstMatchAt(ClientRoutes, TasksPath, 9)
  {
    NotLoginPath(TasksPath);
  }

  /** The dashboard path of a role resolves to that role's guarded dashboard. */
  lemma ResolveDashboard(r: Role)
    ensures Resolve(ClientRoutes, DashboardPath(r)) == Some(Guarded([r], Dashboard(r)))
  {
    DashboardMatch(r);
    ResolveFirst(ClientRoutes, DashboardPath(r), DashboardIndex(r));
  }

  /** Each `/dashboard/R` route admits exactly role R; every other signed-in
      user is sent back to the entry page. */
  lemma DashboardAdmitsOnlyOwner(r: Role, u: User)
    ensures Access(ClientRoutes, DashboardPath(r), false, Some(u))
            == (if u.role == r then Show(Dashboard(r)) else Navigate(EntryPath))
  {
    ResolveDashboard(r);
    assert Access(ClientRoutes, DashboardPath(r), false, Some(u))
           == Render(Some(Guarded([r], Dashboard(r))), false, Some(u));
  }

  /** The doctor-availability page admits doctors, nurses and super-admins; patients are redirected. */
  lemma DoctorAvailabilityAccess(u: User)
    ensures Access(ClientRoutes, DoctorAvailabilityPath, false, Some(u))
            == (if u.role != Patient then Show(DoctorAvailability) else Navigate(EntryPath))
  {
    DoctorAvailabilityMatch();
    ResolveFirst(ClientRoutes, DoctorAvailabilityPath, 7);
    assert Access(ClientRoutes, DoctorAvailabilityPath, false, Some(u))
           == Render(Some(Guarded([Doctor, Nurse, SuperAdmin], DoctorAvailability)), false, Some(u));
  }

  /** The nurse-assignment page admits nurses and super-admins only. */
  lemma NurseAssignmentAccess(u: User)
    ensures Access(ClientRoutes, NurseAssignmentPath, false, Some(u))
            == (if u.role == Nurse || u.role == SuperAdmin then Show(NurseAssignment) else Navigate(EntryPath))
  {
    NurseAssignmentMatch();
    ResolveFirst(ClientRoutes, NurseAssignmentPath, 8);
    assert Access(ClientRoutes, NurseAssignmentPath, false, Some(u))
           == Render(Some(Guarded([Nurse, SuperAdmin], NurseAssignment)), false, Some(u));
  }

  /** The `/tasks` page admits nurses and doctors only; super-admins and patients are redirected. */
  lemma TasksAccess(u: User)
    ensures Access(ClientRoutes, TasksPath, false, Some(u))
            == (if u.role == Nurse || u.role == Doctor then Show(TaskManager) else Navigate(EntryPath))
  {
    TasksMatch();
    ResolveFirst(ClientRoutes, TasksPath, 9);
    assert Access(ClientRoutes, TasksPath, false, Some(u))
           == Render(Some(Guarded([Nurse, Doctor], TaskManager)), false, Some(u));
  }

  /** `/`, `/login/:role` and `/signup` first match the three public routes. */
  lemma PublicMatch(param: string)
    requires param != [] && '/' !in param
    ensures FirstMatchAt(ClientRoutes, EntryPath, 0)
    ensures FirstMatchAt(ClientRoutes, LoginPrefix + param, 1)
    ensures FirstMatchAt(ClientRoutes, SignupPath, 2)
  {
    var login := LoginPrefix + param;
    assert login[..7] == LoginPrefix && login[7..] == param;
  }

  /** The entry page, the login pages and the signup page are shown to anyone,
      signed in or not, even while the session is still loading. */
  lemma PublicRoutesUnguarded(isLoading: bool, user: Option<User>, param: string)
    requires param != [] && '/' !in param
    ensures Access(ClientRoutes, EntryPath, isLoading, user) == Show(HomePage)
    ensures Access(ClientRoutes, LoginPrefix + param, isLoading, user) == Show(LoginPage)
    ensures Access(ClientRoutes, SignupPath, isLoading, user) == Show(SignupPage)
  {
    PublicMatch(param);
    ResolveFirst(ClientRoutes, EntryPath, 0);
    ResolveFirst(ClientRoutes, LoginPrefix + param, 1);
    ResolveFirst(ClientRoutes, SignupPath, 2);
  }

  /** The paths some route other than the catch-all claims. */
  predicate IsDeclaredPath(path: string)
  {
    || path in [EntryPath, SignupPath, "/dashboard/super-admin", "/dashboard/doctor", "/dashboard/nurse",
                "/dashboard/patient", DoctorAvailabilityPath, NurseAssignmentPath, TasksPath]
    || Matches(OneParam(LoginPrefix), path)
  }

  /** Any other path first matches the catch-all. */
  lemma CatchAllMatch(path: string)
    requires !IsDeclaredPath(path)
    ensures FirstMatchAt(ClientRoutes, path, 10)
  {
  }

  /** Any other path redirects to the entry page, whatever the session. */
  lemma UnmatchedRedirectsHome(path: string, isLoading: bool, user: Option<User>)
    requires !IsDeclaredPath(path)
    ensures Access(ClientRoutes, path, isLoading, user) == Navigate(EntryPath)
  {
    CatchAllMatch(path);
    ResolveFirst(ClientRoutes, path, 10);
  }

  /** No path falls through both tables: the catch-all always matches. */
  lemma EveryPathResolves(path: string, isLoading: bool, user: Option<User>)
    ensures Access(ClientRoutes, path, isLoading, user) != Blank
  {
    ResolveFromSpec(ClientRoutes, path, 0);
    assert Matches(ClientRoutes[10].pattern, path);
  }

  /** The react-router table of src/App.tsx decides every path exactly as the
      wouter table of client/src/App.tsx does. */
  lemma TablesAgree(path: string, isLoading: bool, user: Option<User>)
    ensures Access(RouterRoutes, path, isLoading, user) == Access(ClientRoutes, path, isLoading, user)
  {
  }

  /** Every guarded route declares at least one allowed role. */
  lemma GuardedRoutesAllowSomeone(i: nat)
    requires i < |ClientRoutes| && ClientRoutes[i].element.Guarded?
    ensures |ClientRoutes[i].element.allowedRoles| > 0
  {
  }
}

=== FILE: signup_page.dfy ===
/** The signup screen of client/src/pages/SignupPage.tsx: its initial form, its
    redirect, the password check and the role-specific request payload. */
module SignupPage {
  import opened Options
  import opened Roles
  import AuthContext
  import Routes
  import RouteTableFacts

  datatype SignupForm = SignupForm(
    name: string,
    email: string,
    password: string,
    confirmPassword: string,
    role: Role,
    specialty: string,
    department: string,
    patientId: string)

  /** The form as first shown: a patient with every text field empty. */
  const InitialForm: SignupForm := SignupForm("", "", "", "", Patient, "", "", "")

  /** The body sent to `signup`; absent attributes are left out of the object. */
  datatype Payload = Payload(
    name: string,
    email: string,
    password: string,
    role: Role,
    specialty: Option<string>,
    department: Option<string>,
    patientId: Option<string>)

  /** A role attribute is sent only for its own role and only when filled in. */
  function Attribute(own: bool, value: string): (r: Option<string>)
    ensures r.Some? <==> own && value != ""
    ensures r.Some? ==> r.value == value
  {
    if own && value != "" then Some(value) else None
  }

  /** The `userData` object `handleSubmit` builds. */
  function BuildPayload(f: SignupForm): (p: Payload)
    ensures p.name == f.name && p.email == f.email && p.password == f.password && p.role == f.role
    ensures p.specialty.Some? <==> f.role == Doctor && f.specialty != ""
    ensures p.department.Some? <==> f.role == Nurse && f.department != ""
    ensures p.patientId.Some? <==> f.role == Patient && f.patientId != ""
    ensures p.specialty.Some? ==> p.specialty.value == f.specialty
    ensures p.department.Some? ==> p.department.value == f.department
    ensures p.patientId.Some? ==> p.patientId.value == f.patientId
  {
    Payload(f.name, f.email, f.password, f.role,
            Attribute(f.role == Doctor, f.specialty),
            Attribute(f.role == Nurse, f.department),
            Attribute(f.role == Patient, f.patientId))
  }

  /** What the page renders. Its redirect and spinner mirror `Routes.View`;
      the form replaces `Show` because the page renders itself, not a routed page. */
  datatype View = Navigate(to: string) | Spinner | ShowForm

  /** A signed-in visitor goes to their own dashboard; otherwise the spinner
      while loading, else the form. */
  function Render(user: Option<User>, isLoading: bool): (v: View)
    ensures user.Some? ==> v == Navigate(Routes.DashboardPath(user.value.role))
    ensures user.None? && isLoading ==> v == Spinner
    ensures v == ShowForm <==> user.None? && !isLoading
  {
    if user.Some? then Navigate(Routes.DashboardPath(user.value.role))
    else if isLoading then Spinner
    else ShowForm
  }

  datatype Page = Page(form: SignupForm, isSubmitting: bool)

  /** The outcome of a submit: the page, the session, the call made if any, and
      whether the "Passwords do not match" alert was raised. */
  datatype Submitted = Submitted(page: Page, session: AuthContext.Session, request: Option<Payload>, mismatch: bool)

  /** `handleSubmit`: ignored while a submit is in flight; refused with an alert
      when the two passwords differ; otherwise `signup` is called with the
      payload and the flag is cleared once it returns. */
  function HandleSubmit(p: Page, s: AuthContext.Session, response: AuthContext.Response,
                        codec: AuthContext.Codec): (r: Submitted)
    ensures p.isSubmitting ==> r == Submitted(p, s, None, false)
    ensures !p.isSubmitting && p.form.password != p.form.confirmPassword ==>
              r == Submitted(p, s, None, true)
    ensures !p.isSubmitting && p.form.password == p.form.confirmPassword ==>
              && r.request == Some(BuildPayload(p.form))
              && r.page == Page(p.form, false)
              && r.session == AuthContext.Signup(s, response, codec).session
              && !r.mismatch
  {
    if p.isSubmitting then Submitted(p, s, None, false)
    else if p.form.password != p.form.confirmPassword then Submitted(p, s, None, true)
    else
      var busy := p.(isSubmitting := true);
      var c := AuthContext.Signup(s, response, codec);
      Submitted(busy.(isSubmitting := false), c.session, Some(BuildPayload(busy.form)), false)
  }

  /** The confirmation field never reaches the request. */
  lemma PayloadIgnoresConfirmation(f: SignupForm, confirm: string)
    ensures BuildPayload(f.(confirmPassword := confirm)) == BuildPayload(f)
  {
  }

  /** At most one role attribute is ever sent, and the initial form sends none. */
  lemma AtMostOneAttribute(f: SignupForm)
    ensures var p := BuildPayload(f);
            && !(p.specialty.Some? && p.department.Some?)
            && !(p.specialty.Some? && p.patientId.Some?)
            && !(p.department.Some? && p.patientId.Some?)
    ensures BuildPayload(InitialForm) == Payload("", "", "", Patient, None, None, None)
  {
  }

  /** After a successful signup the page, rendered again, redirects the new user
      to their own dashboard, and the route table lets them in there. */
  lemma SuccessfulSignupLandsOnDashboard(p: Page, s: AuthContext.Session, u: User, codec: AuthContext.Codec)
    requires !p.isSubmitting && p.form.password == p.form.confirmPassword
    ensures var r := HandleSubmit(p, s, AuthContext.Accepted(u), codec);
            && Render(r.session.user, r.session.isLoading) == Navigate(Routes.DashboardPath(u.role))
            && Routes.Access(Routes.ClientRoutes, Routes.DashboardPath(u.role), r.session.isLoading, r.session.user)
               == Routes.Show(Routes.Dashboard(u.role))
  {
    RouteTableFacts.DashboardAdmitsOnlyOwner(u.role, u);
  }
}

=== FILE: storage.dfy ===
/** The server's in-memory user store, `MemStorage` of server/storage.ts: a map
    from id to user filled with four demo users, an id counter, lookup by id
    and by email, and creation. */
module Storage {
  import opened Options
  import Lists

  /** The columns a caller supplies when creating a user (the insert schema of
      shared/schema.ts); the role is free text there. */
  datatype InsertUser = InsertUser(
    email: string,
    name: string,
    password: string,
    role: string,
    specialty: Option<string>,
    department: Option<string>,
    patientId: Option<string>)

  /** A stored user: the inserted columns plus the assigned id. */
  datatype StoredUser = StoredUser(
    id: int,
    email: string,
    name: string,
    password: string,
    role: string,
    specialty: Option<string>,
    department: Option<string>,
    patientId: Option<string>)

  /** The store. `users` lists the entries of the JavaScript `Map` in insertion
      order, each keyed by its user's id; `currentId` is the next id to hand out. */
  datatype MemStorage = MemStorage(users: seq<StoredUser>, currentId: int)

  /** The store's invariant: ids strictly increase in insertion order and all lie
      below the counter, so the counter never hands out an id already in use. */
  ghost predicate Valid(st: MemStorage)
  {
    Increasing(st.users) && Below(st.users, st.currentId)
  }

  /** Ids strictly increase in insertion order. */
  ghost predicate Increasing(users: seq<StoredUser>)
  {
    forall i, j :: 0 <= i < j < |users| ==> users[i].id < users[j].id
  }

  /** Every id lies below `bound`. */
  ghost predicate Below(users: seq<StoredUser>, bound: int)
  {
    forall i :: 0 <= i < |users| ==> users[i].id < bound
  }

  /** `value || null` on an optional text column: both `null` and the empty
      string (the falsy values) become `null`; anything else is kept. */
  function OrNull(v: Option<string>): (r: Option<string>)
    ensures r.None? <==> v.None? || v.value == ""
    ensures r.Some? ==> r == v
  {
    if v.Some? && v.value != "" then v else None
  }

  /** `{ ...insertUser, id, specialty: … || null, … }`. */
  function WithId(ins: InsertUser, id: int): (u: StoredUser)
    ensures u.id == id && u.email == ins.email && u.name == ins.name
    ensures u.password == ins.password && u.role == ins.role
    // no optional attribute is ever stored as the empty string
    ensures u.specialty != Some("") && u.department != Some("") && u.patientId != Some("")
  {
    StoredUser(id, ins.email, ins.name, ins.password, ins.role,
               OrNull(ins.specialty), OrNull(ins.department), OrNull(ins.patientId))
  }

  /** `Map.prototype.get(id)`: the entry stored under `id`. */
  function FindId(users: seq<StoredUser>, id: int): (r: Option<StoredUser>)
    ensures r.None? <==> forall i :: 0 <= i < |users| ==> users[i].id != id
    ensures r.Some? ==> r.value.id == id
    decreases |users|
  {
    if users == [] then None
    else if users[0].id == id then Some(users[0])
    else FindId(users[1..], id)
  }

  /** The entry `FindId` returns is the one at the first position holding the key. */
  lemma {:induction false} FindIdAt(users: seq<StoredUser>, id: int, k: nat)
    requires k < |users| && users[k].id == id
    requires forall j :: 0 <= j < k ==> users[j].id != id
    ensures FindId(users, id) == Some(users[k])
    decreases k
  {
    if k > 0 {
      assert users[0].id != id;
      FindIdAt(users[1..], id, k - 1);
    }
  }

  /** `Map.prototype.set(u.id, u)`: an entry with the same key is overwritten in
      place, otherwise the entry is appended. */
  function Put(users: seq<StoredUser>, u: StoredUser): (r: seq<StoredUser>)
    ensures (forall i :: 0 <= i < |users| ==> users[i].id != u.id) ==> r == users + [u]
    ensures |r| == if FindId(users, u.id).Some? then |users| else |users| + 1
    decreases |users|
  {
    if users == [] then [u]
    else if users[0].id == u.id then [u] + users[1..]
    else [users[0]] + Put(users[1..], u)
  }

  /** After `set`, the key maps to the new entry and every other key keeps its
      entry: the map-update law. */
  lemma {:induction false} PutLookup(users: seq<StoredUser>, u: StoredUser, id: int)
    ensures FindId(Put(users, u), id) == if id == u.id then Some(u) else FindId(users, id)
    decreases |users|
  {
    if users == [] {
    } else if users[0].id == u.id {
      assert ([u] + users[1..])[1..] == users[1..];
    } else {
      assert ([users[0]] + Put(users[1..], u))[1..] == Put(users[1..], u);
      PutLookup(users[1..], u, id);
    }
  }

  /** `getUser(id)`. */
  function GetUser(st: MemStorage, id: int): (r: Option<StoredUser>)
    ensures r.None? <==> forall i :: 0 <= i < |st.users| ==> st.users[i].id != id
    ensures r.Some? ==> r.value.id == id
  {
    FindId(st.users, id)
  }

  /** In a valid store every stored user is found under its own id. */
  lemma GetUserFindsStored(st: MemStorage, k: nat)
    requires Valid(st) && k < |st.users|
    ensures GetUser(st, st.users[k].id) == Some(st.users[k])
  {
    FindIdAt(st.users, st.users[k].id, k);
  }

  /** The first user in insertion order whose email equals `e` exactly. */
  function FirstWithEmail(users: seq<StoredUser>, e: string): (r: Option<StoredUser>)
    ensures r.None? <==> forall i :: 0 <= i < |users| ==> users[i].email != e
    ensures r.Some? ==> r.value.email == e
    decreases |users|
  {
    if users == [] then None
    else if users[0].email == e then Some(users[0])
    else FirstWithEmail(users[1..], e)
  }

  /** The match `FirstWithEmail` returns is the one at the first position
      holding the email: any such position determines the result. */
  lemma {:induction false} FirstWithEmailAt(users: seq<StoredUser>, e: string, k: nat)
    requires k < |users| && users[k].email == e
    requires forall j :: 0 <= j < k ==> users[j].email != e
    ensures FirstWithEmail(users, e) == Some(users[k])
    decreases k
  {
    if k > 0 {
      assert users[0].email != e;
      FirstWithEmailAt(users[1..], e, k - 1);
    }
  }

  /** `getUserByEmail(e)`: `Array.from(users.values()).find(u => u.email === e)`.
      Matching is exact and case-sensitive; with several matches the earliest
      inserted wins, which in a valid store is the one with the lowest id. */
  method GetUserByEmail(st: MemStorage, e: string) returns (r: Option<StoredUser>)
    ensures r == FirstWithEmail(st.users, e)
    ensures r.None? <==> forall i :: 0 <= i < |st.users| ==> st.users[i].email != e
    ensures Valid(st) && r.Some? ==>
              forall i :: 0 <= i < |st.users| && st.users[i].email == e ==> r.value.id <= st.users[i].id
  {
    var i := 0;
    while i < |st.users|
      invariant 0 <= i <= |st.users|
      invariant forall j :: 0 <= j < i ==> st.users[j].email != e
    {
      if st.users[i].email == e {
        r := Some(st.users[i]);
        FirstWithEmailAt(st.users, e, i);
        return;
      }
      i := i + 1;
    }
    r := None;
  }

  /** The result of `createUser`: the new store and the returned user. */
  datatype Created = Created(store: MemStorage, user: StoredUser)

  /** `createUser(insertUser)`: the user gets the current counter as its id, the
      counter moves on by one, and falsy role attributes are stored as `null`.
      There is no duplicate-email check. */
  function CreateUser(st: MemStorage, ins: InsertUser): (r: Created)
    ensures r.user.id == st.currentId && r.store.currentId == st.currentId + 1
    ensures r.user.email == ins.email && r.user.name == ins.name
    ensures r.user.password == ins.password && r.user.role == ins.role
    ensures r.user.specialty == OrNull(ins.specialty)
    ensures r.user.department == OrNull(ins.department)
    ensures r.user.patientId == OrNull(ins.patientId)
    ensures Below(st.users, st.currentId) ==> r.store.users == st.users + [r.user]
    ensures Valid(st) ==> Valid(r.store)
  {
    var u := WithId(ins, st.currentId);
    Created(MemStorage(Put(st.users, u), st.currentId + 1), u)
  }

  /** The users a run of inserts creates: `list[i]` with id `first + i`. */
  function Numbered(list: seq<InsertUser>, first: int): (r: seq<StoredUser>)
    ensures |r| == |list|
    decreases |list|
  {
    if list == [] then [] else [WithId(list[0], first)] + Numbered(list[1..], first + 1)
  }

  /** Numbering a non-empty list numbers its head first. */
  lemma NumberedCons(list: seq<InsertUser>, first: int)
    requires list != []
    ensures Numbered(list, first) == [WithId(list[0], first)] + Numbered(list[1..], first + 1)
  {
  }

  /** The `i`-th created user is `list[i]` with id `first + i`. */
  lemma {:induction false} NumberedAt(list: seq<InsertUser>, first: int, i: int)
    requires 0 <= i < |list|
    ensures Numbered(list, first)[i] == WithId(list[i], first + i)
    decreases |list|
  {
    if i > 0 {
      NumberedAt(list[1..], first + 1, i - 1);
    }
  }

  /** `initializeDemoUsers`: each listed user is inserted in order, exactly as
      `createUser` does. */
  function InsertAll(st: MemStorage, list: seq<InsertUser>): (r: MemStorage)
    ensures r.currentId == st.currentId + |list|
    decreases |list|
  {
    if list == [] then st else InsertAll(CreateUser(st, list[0]).store, list[1..])
  }

  /** Inserting into a valid store keeps it valid. */
  lemma {:induction false} InsertAllValid(st: MemStorage, list: seq<InsertUser>)
    requires Valid(st)
    ensures Valid(InsertAll(st, list))
    decreases |list|
  {
    if list != [] {
      var c := CreateUser(st, list[0]);
      InsertAllValid(c.store, list[1..]);
      assert InsertAll(st, list) == InsertAll(c.store, list[1..]);
    }
  }

  /** One insert into a store whose ids all lie below the counter appends the
      new user and keeps every id below the advanced counter. */
  lemma CreateAppends(st: MemStorage, ins: InsertUser)
    requires Below(st.users, st.currentId)
    ensures CreateUser(st, ins).store
            == MemStorage(st.users + [WithId(ins, st.currentId)], st.currentId + 1)
    ensures Below(st.users + [WithId(ins, st.currentId)], st.currentId + 1)
  {
  }

  /** When every id lies below the counter, inserting a list appends its users, numbered from the
      counter, in list order. */
  lemma {:induction false} InsertAllAppends(st: MemStorage, list: seq<InsertUser>)
    requires Below(st.users, st.currentId)
    ensures InsertAll(st, list).users == st.users + Numbered(list, st.currentId)
    decreases |list|
  {
    if list == [] {
      assert st.users + [] == st.users;
    } else {
      var u := WithId(list[0], st.currentId);
      var rest := Numbered(list[1..], st.currentId + 1);
      CreateAppends(st, list[0]);
      var next := MemStorage(st.users + [u], st.currentId + 1);
      assert InsertAll(st, list) == InsertAll(next, list[1..]);
      InsertAllAppends(next, list[1..]);
      NumberedCons(list, st.currentId);
      Lists.AppendAssoc(st.users, [u], rest);
    }
  }

  const DemoUsers: seq<InsertUser> := [
    InsertUser("admin@medora.com", "Admin User", "admin123", "super-admin", None, None, None),
    InsertUser("dr.smith@medora.com", "Dr. Smith", "doctor123", "doctor", Some("Cardiology"), None, None),
    InsertUser("nurse.johnson@medora.com", "Nurse Johnson", "nurse123", "nurse", None, Some("Emergency"), None),
    InsertUser("patient.doe@medora.com", "John Doe", "patient123", "patient", None, None, Some("P12345"))
  ]

  /** Inserting a list into an empty store whose counter starts at 1 gives
      `list[i]` the id `i + 1` and leaves a valid store. */
  function Seeded(list: seq<InsertUser>): (st: MemStorage)
    ensures Valid(st)
    ensures st.currentId == |list| + 1 && |st.users| == |list|
    ensures forall i :: 0 <= i < |list| ==> st.users[i] == WithId(list[i], i + 1)
  {
    var empty := MemStorage([], 1);
    InsertAllValid(empty, list);
    InsertAllAppends(empty, list);
    assert [] + Numbered(list, 1) == Numbered(list, 1);
    forall i | 0 <= i < |list|
      ensures Numbered(list, 1)[i] == WithId(list[i], i + 1)
    {
      NumberedAt(list, 1, i);
    }
    InsertAll(empty, list)
  }

  /** The constructor: an empty map, the counter at 1, then the demo users. */
  function New(): (st: MemStorage)
    ensures Valid(st)
    ensures st.currentId == 5 && |st.users| == 4
    ensures forall i :: 0 <= i < 4 ==> st.users[i] == WithId(DemoUsers[i], i + 1)
  {
    Seeded(DemoUsers)
  }

  /** The created user is found under its new id, and every other id's entry is
      as it was. */
  lemma CreateLookup(st: MemStorage, ins: InsertUser, id: int)
    ensures var c := CreateUser(st, ins);
            GetUser(c.store, id) == if id == c.user.id then Some(c.user) else GetUser(st, id)
  {
    PutLookup(st.users, WithId(ins, st.currentId), id);
  }

  /** Email lookup over a concatenation: the first part wins whenever it has a match. */
  lemma {:induction false} FirstWithEmailAppend(a: seq<StoredUser>, b: seq<StoredUser>, e: string)
    ensures FirstWithEmail(a + b, e)
            == if FirstWithEmail(a, e).Some? then FirstWithEmail(a, e) else FirstWithEmail(b, e)
    decreases |a|
  {
    if a == [] {
      assert a + b == b;
    } else {
      assert (a + b)[0] == a[0];
      assert (a + b)[1..] == a[1..] + b;
      FirstWithEmailAppend(a[1..], b, e);
    }
  }

  /** No duplicate check: creating a user whose email is already taken still
      succeeds, and lookups by that email keep returning the earlier user. */
  lemma DuplicateEmailKeepsEarliest(st: MemStorage, ins: InsertUser)
    requires Valid(st) && FirstWithEmail(st.users, ins.email).Some?
    ensures var after := CreateUser(st, ins).store;
            && |after.users| == |st.users| + 1
            && FirstWithEmail(after.users, ins.email) == FirstWithEmail(st.users, ins.email)
  {
    var c := CreateUser(st, ins);
    FirstWithEmailAppend(st.users, [c.user], ins.email);
  }

  /** A fresh email becomes findable, and finds the user just created. */
  lemma NewEmailFindsCreated(st: MemStorage, ins: InsertUser)
    requires Valid(st) && FirstWithEmail(st.users, ins.email).None?
    ensures var c := CreateUser(st, ins);
            FirstWithEmail(c.store.users, ins.email) == Some(c.user)
  {
    var c := CreateUser(st, ins);
    FirstWithEmailAppend(st.users, [c.user], ins.email);
  }
}

=== FILE: task_manager.dfy ===
/** The nursing to-do list of client/src/pages/TaskManager.tsx: add, toggle, delete and
    the pending/completed split the screen shows. Ids and timestamps, which the
    screen takes from the clock, are inputs. */
module TaskManager {
  import opened Lists
  import opened Text

  datatype Priority = Low | Medium | High

  datatype Task = Task(id: int, description: string, priority: Priority, completed: bool, createdAt: string)

  /** The "new task" form. */
  datatype Draft = Draft(description: string, priority: Priority)

  /** The screen's state: the list and the form. */
  datatype Screen = Screen(tasks: seq<Task>, draft: Draft)

  const EmptyDraft: Draft := Draft("", Medium)

  const InitialTasks: seq<Task> := [
    Task(1, "Check vitals for Room 204", High, false, "2025-01-13T09:00:00Z"),
    Task(2, "Administer medication to Patient #12345", Medium, true, "2025-01-13T08:30:00Z"),
    Task(3, "Update patient chart for Room 207", Low, false, "2025-01-13T08:00:00Z")
  ]

  const Initial: Screen := Screen(InitialTasks, EmptyDraft)

  /** `handleSubmit`: a description that trims to nothing is ignored; otherwise
      one open task is appended and the form is cleared. `id` and `now` stand
      for `Date.now()` and the ISO timestamp; they need not be unique. */
  function Submit(s: Screen, id: int, now: string): (r: Screen)
    ensures IsBlank(s.draft.description) ==> r == s
    ensures !IsBlank(s.draft.description) ==>
              && r.tasks == s.tasks + [Task(id, s.draft.description, s.draft.priority, false, now)]
              && r.draft == EmptyDraft
  {
    TrimEmptyIffBlank(s.draft.description);
    if Trim(s.draft.description) == [] then s
    else
      Screen(s.tasks + [Task(id, s.draft.description, s.draft.priority, false, now)], EmptyDraft)
  }

  /** `toggleTask(id)`: flips `completed` on every task carrying that id. */
  function Toggle(tasks: seq<Task>, id: int): (r: seq<Task>)
    ensures |r| == |tasks|
    ensures forall i :: 0 <= i < |tasks| && tasks[i].id != id ==> r[i] == tasks[i]
    ensures forall i :: 0 <= i < |tasks| && tasks[i].id == id ==>
              r[i] == tasks[i].(completed := !tasks[i].completed)
  {
    seq(|tasks|, i requires 0 <= i < |tasks| =>
      if tasks[i].id == id then tasks[i].(completed := !tasks[i].completed) else tasks[i])
  }

  /** The predicate `deleteTask(id)` filters by. */
  function IdIsNot(id: int): Task -> bool
  {
    (t: Task) => t.id != id
  }

  /** The tasks `deleteTask(id)` removes. */
  function HasId(id: int): Task -> bool
  {
    (t: Task) => t.id == id
  }

  /** `deleteTask(id)`: drops every task carrying that id and nothing else;
      what it keeps and what it drops add up to the list, with multiplicity. */
  function Delete(tasks: seq<Task>, id: int): (r: seq<Task>)
    ensures forall i :: 0 <= i < |r| ==> r[i].id != id
    ensures multiset(r) + multiset(Filter(tasks, HasId(id))) == multiset(tasks)
  {
    FilterPartition(tasks, IdIsNot(id), HasId(id));
    Filter(tasks, IdIsNot(id))
  }

  predicate IsPending(t: Task) { !t.completed }

  predicate IsCompleted(t: Task) { t.completed }

  /** The two lists the screen shows. */
  function Pending(tasks: seq<Task>): (r: seq<Task>)
    ensures |r| <= |tasks|
    ensures forall i :: 0 <= i < |r| ==> !r[i].completed
  {
    Filter(tasks, IsPending)
  }

  function Completed(tasks: seq<Task>): (r: seq<Task>)
    ensures |r| <= |tasks|
    ensures forall i :: 0 <= i < |r| ==> r[i].completed
  {
    Filter(tasks, IsCompleted)
  }

  /** Toggling twice restores the list. */
  lemma ToggleTwice(tasks: seq<Task>, id: int)
    ensures Toggle(Toggle(tasks, id), id) == tasks
  {
  }

  /** Toggling an id no task carries changes nothing. */
  lemma ToggleAbsent(tasks: seq<Task>, id: int)
    requires forall i :: 0 <= i < |tasks| ==> tasks[i].id != id
    ensures Toggle(tasks, id) == tasks
  {
  }

  /** Deleting an id no task carries changes nothing, so a second delete of
      the same id is a no-op. */
  lemma DeleteAbsent(tasks: seq<Task>, id: int)
    requires forall i :: 0 <= i < |tasks| ==> tasks[i].id != id
    ensures Delete(tasks, id) == tasks
  {
    FilterKeepsAll(tasks, IdIsNot(id));
  }

  /** Deleting and the two panels keep the original order: each distributes
      over concatenation, so what survives of the front stays before what
      survives of the back. */
  lemma DeleteKeepsOrder(front: seq<Task>, back: seq<Task>, id: int)
    ensures Delete(front + back, id) == Delete(front, id) + Delete(back, id)
    ensures Pending(front + back) == Pending(front) + Pending(back)
    ensures Completed(front + back) == Completed(front) + Completed(back)
  {
    FilterAppend(front, back, IdIsNot(id));
    FilterAppend(front, back, IsPending);
    FilterAppend(front, back, IsCompleted);
  }

  /** A deleted task disappears from whichever panel showed it, and the panels
      otherwise stay as they were. */
  lemma DeleteFromPanels(tasks: seq<Task>, id: int)
    ensures Pending(Delete(tasks, id)) == Filter(Pending(tasks), IdIsNot(id))
    ensures Completed(Delete(tasks, id)) == Filter(Completed(tasks), IdIsNot(id))
  {
    FilterCommute(tasks, IdIsNot(id), IsPending);
    FilterCommute(tasks, IdIsNot(id), IsCompleted);
  }

  /** The pending and completed lists split a task list: every task is in exactly
      one of them, with multiplicity, and their lengths add up. */
  lemma PendingCompletedPartition(tasks: seq<Task>)
    ensures |Pending(tasks)| + |Completed(tasks)| == |tasks|
    ensures multiset(Pending(tasks)) + multiset(Completed(tasks)) == multiset(tasks)
    ensures forall i :: 0 <= i < |Pending(tasks)| ==> !Pending(tasks)[i].completed
    ensures forall i :: 0 <= i < |Completed(tasks)| ==> Completed(tasks)[i].completed
  {
    FilterPartition(tasks, IsPending, IsCompleted);
  }

  /** Adding a task puts it at the end of the pending list, which otherwise stays as it was. */
  lemma SubmitAddsPending(s: Screen, id: int, now: string)
    requires !IsBlank(s.draft.description)
    ensures Pending(Submit(s, id, now).tasks)
            == Pending(s.tasks) + [Task(id, s.draft.description, s.draft.priority, false, now)]
    ensures Completed(Submit(s, id, now).tasks) == Completed(s.tasks)
  {
    var t := Task(id, s.draft.description, s.draft.priority, false, now);
    FilterAppend(s.tasks, [t], IsPending);
    FilterAppend(s.tasks, [t], IsCompleted);
  }
}

=== FILE: text.dfy ===
/** The few JavaScript string operations the screens use: `trim`, `replace`
    with a one-character pattern, `split(' ')[0]` and `charAt(0)`. */
module Text {

  /** The characters ECMAScript's `String.prototype.trim` strips: the
      WhiteSpace and LineTerminator code points of ECMA-262. */
  predicate IsWhitespace(c: char)
  {
    || c == '\t' || c == '\n' || c == '\U{000B}' || c == '\U{000C}' || c == '\r'
    || c == ' ' || c == '\U{00A0}' || c == '\U{1680}'
    || ('\U{2000}' <= c <= '\U{200A}')
    || c == '\U{2028}' || c == '\U{2029}' || c == '\U{202F}' || c == '\U{205F}'
    || c == '\U{3000}' || c == '\U{FEFF}'
  }

  /** Drops leading whitespace. */
  function TrimStart(s: string): (r: string)
    ensures |r| <= |s| && r == s[|s| - |r|..]
    ensures r == [] || !IsWhitespace(r[0])
    ensures forall i :: 0 <= i < |s| - |r| ==> IsWhitespace(s[i])
    decreases |s|
  {
    if s != [] && IsWhitespace(s[0]) then TrimStart(s[1..]) else s
  }

  /** Drops trailing whitespace. */
  function TrimEnd(s: string): (r: string)
    ensures |r| <= |s| && r == s[..|r|]
    ensures r == [] || !IsWhitespace(r[|r| - 1])
    ensures forall i :: |r| <= i < |s| ==> IsWhitespace(s[i])
    decreases |s|
  {
    if s != [] && IsWhitespace(s[|s| - 1]) then TrimEnd(s[..|s| - 1]) else s
  }

  /** `s.trim()`. */
  function Trim(s: string): (r: string)
    ensures |r| <= |s|
    ensures r == [] || (!IsWhitespace(r[0]) && !IsWhitespace(r[|r| - 1]))
  {
    TrimEnd(TrimStart(s))
  }

  /** A string is blank when every character is whitespace (the empty string included). */
  predicate IsBlank(s: string)
  {
    forall i :: 0 <= i < |s| ==> IsWhitespace(s[i])
  }

  /** `!s.trim()` holds exactly for blank strings: trimming leaves nothing iff
      there is nothing but whitespace. */
  lemma TrimEmptyIffBlank(s: string)
    ensures Trim(s) == [] <==> IsBlank(s)
  {
  }

  /** No position of `s` holds `c`. */
  predicate Lacks(s: string, c: char)
  {
    forall k :: 0 <= k < |s| ==> s[k] != c
  }

  /** The code-point position of the first `c`, or -1 when there is none; the
      search `replace` performs to find its pattern. */
  function IndexOf(s: string, c: char): (i: int)
    ensures -1 <= i < |s|
    ensures i == -1 <==> Lacks(s, c)
    ensures 0 <= i ==> s[i] == c && Lacks(s[..i], c)
    decreases |s|
  {
    if s == [] then -1
    else if s[0] == c then 0
    else
      var j := IndexOf(s[1..], c);
      if j == -1 then -1 else j + 1
  }

  /** The first occurrence is unique: a position holding `c` with no `c`
      before it is the one `IndexOf` finds. */
  lemma IndexOfFirst(s: string, c: char, i: nat)
    requires i < |s| && s[i] == c && Lacks(s[..i], c)
    ensures IndexOf(s, c) == i
  {
  }

  /** `s.replace(from, to)` for a one-character string pattern: only the first
      occurrence of `from` is replaced. */
  function ReplaceFirst(s: string, from: char, to: char): (r: string)
    ensures |r| == |s|
    ensures Lacks(s, from) ==> r == s
    ensures forall j :: 0 <= j < |s| ==> r[j] == (if j == IndexOf(s, from) then to else s[j])
  {
    var i := IndexOf(s, from);
    if i == -1 then s else s[..i] + [to] + s[i + 1..]
  }

  /** `s.split(' ')[0]`: everything before the first space, or all of `s`. */
  function FirstWord(s: string): (r: string)
    ensures |r| <= |s| && r == s[..|r|]
    ensures Lacks(r, ' ')
    ensures r == s || s[|r|] == ' '
    decreases |s|
  {
    if s == [] || s[0] == ' ' then [] else [s[0]] + FirstWord(s[1..])
  }

  /** The three facts above pin the first word down: no other prefix has them. */
  lemma {:induction false} FirstWordUnique(s: string, p: string)
    requires |p| <= |s| && p == s[..|p|]
    requires Lacks(p, ' ')
    requires p == s || s[|p|] == ' '
    ensures p == FirstWord(s)
    decreases |p|
  {
    if p != [] {
      assert p[0] == s[0] != ' ';
      assert p[1..] == s[1..][..|p| - 1];
      FirstWordUnique(s[1..], p[1..]);
      assert p == [p[0]] + p[1..];
    }
  }

  /** `s.charAt(0)`: the first character, or the empty string. */
  function FirstChar(s: string): (r: string)
    ensures |r| == (if s == [] then 0 else 1)
    ensures r == s[..|r|]
  {
    if s == [] then [] else [s[0]]
  }
}
